=== FILE: README.md ===
# EcoLedgerFlow ledger workflow, modelled in Dafny

EcoLedgerFlow is a carbon-credit ledger for mangrove plantations. An NGO
submits a plantation, and the plantation's credit count is fixed by the credit
rule: one credit per full hundred mangroves. An admin then verifies or rejects
it. A verify mints one available credit for the NGO and records a `mint`
entry on the ledger. A buyer purchases an available credit, which becomes
`sold` and is recorded as a `transfer` entry.

This project models that workflow and proves properties of it:

- the four tables (users, plantations, credits, transactions), the
  database's own constraints, and the order of the creation stamps;
- the ledger store that reads and writes them;
- the verify, reject, purchase, stats and login handlers;
- the credit rule and the two hash generators;
- the navigation bar's role filter.

Modules, one per source file:

- `Schema` (`schema.dfy`, from `shared/schema.ts`) holds the records and the
  insert shapes. Each table is a map from primary key to row. It also holds
  the predicate `Consistent`. It combines the database's own constraints:
  rows stored under their own id, the unique `username` and
  `transaction_hash`, the foreign keys, and the 32-bit `integer` columns.
  It also holds two invariants of the counter that stands for `now()`:
  every stamp was taken before the counter's current value, and no two rows
  of a table share a `created_at`. Postgres does not enforce these two (the
  `created_at` columns are not unique); they follow from the counter
  advancing on every insert. The strict newest-first order of the queries
  and the requires of `Routes.Stats` rest on them.
- `Storage` (`storage.dfy`, from `server/storage.ts`) specifies each write
  statement as a function from the database to a `Step`: the new database
  plus the statement's result, or the database's refusal. Every statement is
  proved to keep `Consistent`. The class `LedgerStore` holds the tables as
  fields. Its methods perform the statements and are proved to have exactly
  the effect of their function. Its queries return exactly the matching rows,
  newest first.
- `Utils` (`utils.dfy`, from `client/src/lib/utils.ts`) holds `calculateCredits`
  and the client's `generateTransactionHash`, which builds the hash in two
  loops.
- `Routes` (`routes.dfy`, from `server/routes.ts`) holds the handlers without
  their HTTP layer:
  - a 404 becomes `NotFound`;
  - the purchase handler's 400 becomes `NotAvailable`;
  - a statement the database refuses becomes `Failed`. The state left
    behind is whatever the earlier statements wrote, because the handlers do
    not run inside a database transaction.

  Verify, reject and purchase are specified by functions on the database
  (`VerifySpec`, `RejectSpec`, `PurchaseSpec`). Their methods on a
  `LedgerStore` are proved to follow them.
- `Workflow` (`workflow.dfy`) proves what the handlers guarantee:
  - their outcome in every case;
  - the ledger invariant `Ledgered`, which links plantations, credits and
    ledger entries;
  - their effect on the stats.
- `Navbar` (`navbar.dfy`, from `client/src/components/navbar.tsx`) holds the
  menu items and the role filter.

Time and randomness are modelled as follows:

- `now()` is a counter, `Db.clock`. Each plantation, credit and
  transaction insert takes the current value as its `created_at` and
  advances it; the users table has no `created_at`. A verify takes it as `verified_at` and
  advances it.
- `randomUUID()` is "some key the table does not hold yet".
- The server's `randomBytes(6)` is a six-byte parameter.
- The client's twelve `Math.random()` digit choices are a parameter.

Two facts of the code shape what is proved:

- Nothing checks a plantation's current status, so an already verified or
  rejected plantation can be verified again (which mints again) or
  rejected; rejecting leaves earlier credits on sale.
- The store does not require a plantation's mangrove count to be positive;
  only the 32-bit column range limits it.

## Model

| member | source | states |
|---|---|---|
| Schema.Consistent | EcoLedgerFlow/shared/schema.ts:6-50 | the database's constraints (keys, unique `username` and `transaction_hash`, foreign keys, 32-bit integers) together with the creation-stamp invariants of the clock; no contract of its own, every store statement is proved to keep it |
| Schema.EmptyWithoutUsers | EcoLedgerFlow/shared/schema.ts:14-50 | every other table references users, so a consistent database without users holds no plantations, credits or transactions |
| Utils.CalculateCredits | EcoLedgerFlow/client/src/lib/utils.ts:21-23 | the result is the floor of the count divided by 100: `100*c <= n < 100*(c+1)`, negative counts included |
| Utils.CreditsDetermined | EcoLedgerFlow/client/src/lib/utils.ts:21-23 | any credit count within those bounds is the one the rule gives, so the bounds specify the rule completely |
| Utils.CalculateCreditsMonotone | EcoLedgerFlow/client/src/lib/utils.ts:21-23 | more mangroves never earn fewer credits |
| Utils.CalculateCreditsExamples | EcoLedgerFlow/client/src/lib/utils.ts:21-23 | counts from 0 to 99 earn 0, 100 earns 1, 250 earns 2 and 500 earns 5 |
| Utils.GenerateTransactionHash | EcoLedgerFlow/client/src/lib/utils.ts:8-19 | the hash has 17 characters: "0x", then six hex digits, then "..." at indices 8-10, then six hex digits; digit k is the alphabet character of the k-th random choice, in drawing order |
| Storage.InsertUser | EcoLedgerFlow/server/storage.ts:128-134 | one new user under the fresh id holding the input's username, password, role and organization name; refused (UniqueViolation, nothing written) exactly when the username is taken |
| Storage.InsertPlantation | EcoLedgerFlow/server/storage.ts:149-157 | one new row under the fresh id holding the input's NGO, count, latitude, longitude, notes and image URL: creditsEarned is floor(count/100), status is "pending" whatever the input says, created now, never verified; refused and nothing written exactly when the count overflows the column or the NGO is not a user (the modelled refusals; see Left out for the decimal columns) |
| Storage.SetPlantationStatus | EcoLedgerFlow/server/storage.ts:160-172 | on an absent id: no row, nothing changed. "verified": sets status, verifiedAt (now) and verifiedBy, where a missing or empty verifier is stored as null; refused only for a verifier who is not a user. Any other status: changes the status alone and keeps an earlier verification stamp. Other tables are untouched |
| Storage.InsertCredit | EcoLedgerFlow/server/storage.ts:187-193 | refused exactly when the amount does not fit the 32-bit column (OutOfRange) or the plantation, issuer or owner does not exist (ForeignKeyViolation), and then nothing changes; otherwise one new credit with the input's fields under the fresh id, status defaulting to "available", created now, and nothing else changed |
| Storage.Reassign | EcoLedgerFlow/server/storage.ts:195-204 | the result is "no row" exactly when the id is absent, and then nothing changes; otherwise the credit gets the new owner and status "sold" with no status check, and every other field and credit is unchanged; refused only for an owner who is not a user |
| Storage.InsertTransaction | EcoLedgerFlow/server/storage.ts:214-220 | refused exactly when the amount does not fit the 32-bit column (OutOfRange), the hash is already on the ledger (UniqueViolation), or the sender, receiver or credit does not exist (ForeignKeyViolation), and then nothing changes; otherwise one new entry with the input's fields, status defaulting to "confirmed", created now |
| Storage.InsertUserConsistent | EcoLedgerFlow/shared/schema.ts:6-12 | creating a user keeps every database constraint |
| Storage.InsertPlantationConsistent | EcoLedgerFlow/shared/schema.ts:14-27 | creating a plantation keeps every database constraint |
| Storage.SetPlantationStatusConsistent | EcoLedgerFlow/shared/schema.ts:14-27 | updating a plantation's status keeps every database constraint |
| Storage.InsertCreditConsistent | EcoLedgerFlow/shared/schema.ts:29-38 | creating a credit keeps every database constraint |
| Storage.ReassignConsistent | EcoLedgerFlow/shared/schema.ts:29-38 | transferring a credit keeps every database constraint |
| Storage.InsertTransactionConsistent | EcoLedgerFlow/shared/schema.ts:40-50 | creating a ledger entry keeps every database constraint, including the unique hash |
| Storage.SampleData | EcoLedgerFlow/server/storage.ts:50-110 | the database the seeding writes into an empty one: the three users, the plantation, the credit and the mint, stamped in insert order; no contract of its own, see SampleDataConsistent and Workflow.SampleDataLedgered |
| Storage.SampleDataConsistent | EcoLedgerFlow/server/storage.ts:50-110 | the seeded users, plantation, credit and mint satisfy every constraint of the schema |
| Storage.SelectNewestFirst | EcoLedgerFlow/server/storage.ts:141-147 | `where ... order by created_at desc`: exactly the stored rows that match, in strictly descending creation order |
| Storage.NewId | EcoLedgerFlow/server/storage.ts:131 | `randomUUID()` gives a key the table does not hold |
| Storage.LedgerStore.constructor | EcoLedgerFlow/server/storage.ts:37-40 | constructing the store seeds a database without users and leaves any other database as it is |
| Storage.LedgerStore.InitializeSampleData | EcoLedgerFlow/server/storage.ts:42-116 | seeding happens only when the users table is empty, and then yields exactly the sample data; the constraints hold afterwards |
| Storage.LedgerStore.Seed | EcoLedgerFlow/server/storage.ts:50-110 | the six seeding inserts, in order, produce exactly the sample database |
| Storage.LedgerStore.GetUser | EcoLedgerFlow/server/storage.ts:118-121 | the user with that id, if any |
| Storage.LedgerStore.GetUserByUsername | EcoLedgerFlow/server/storage.ts:123-126 | a user with that username exactly when one exists, and then the only one |
| Storage.LedgerStore.CreateUser | EcoLedgerFlow/server/storage.ts:128-134 | has the effect of InsertUser for some id not in the table, and keeps the constraints |
| Storage.LedgerStore.GetPlantation | EcoLedgerFlow/server/storage.ts:136-139 | the plantation with that id, if any |
| Storage.LedgerStore.GetPlantationsByNgo | EcoLedgerFlow/server/storage.ts:141-143 | exactly that NGO's plantations, newest first |
| Storage.LedgerStore.GetPendingPlantations | EcoLedgerFlow/server/storage.ts:145-147 | exactly the pending plantations, newest first |
| Storage.LedgerStore.CreatePlantation | EcoLedgerFlow/server/storage.ts:149-158 | has the effect of InsertPlantation for some id not in the table, and keeps the constraints |
| Storage.LedgerStore.UpdatePlantationStatus | EcoLedgerFlow/server/storage.ts:160-172 | builds the update step by step and has the effect of SetPlantationStatus, keeping the constraints |
| Storage.LedgerStore.GetCredit | EcoLedgerFlow/server/storage.ts:174-177 | the credit with that id, if any |
| Storage.LedgerStore.GetCreditsByOwner | EcoLedgerFlow/server/storage.ts:179-181 | exactly the credits the owner currently holds, newest first |
| Storage.LedgerStore.GetAvailableCredits | EcoLedgerFlow/server/storage.ts:183-185 | exactly the available credits, newest first |
| Storage.LedgerStore.CreateCredit | EcoLedgerFlow/server/storage.ts:187-193 | has the effect of InsertCredit for some id not in the table, and keeps the constraints |
| Storage.LedgerStore.TransferCredit | EcoLedgerFlow/server/storage.ts:195-204 | has the effect of Reassign and keeps the constraints |
| Storage.LedgerStore.GetTransactions | EcoLedgerFlow/server/storage.ts:206-208 | every ledger entry, newest first |
| Storage.LedgerStore.GetTransactionsByUser | EcoLedgerFlow/server/storage.ts:210-212 | exactly the entries the user sent, newest first; entries the user only received, such as mints, are not included |
| Storage.LedgerStore.CreateTransaction | EcoLedgerFlow/server/storage.ts:214-220 | has the effect of InsertTransaction for some id not in the table, and keeps the constraints |
| Routes.Hex | EcoLedgerFlow/server/routes.ts:8 | the upper-case hex encoding has two digits per byte, all from 0-9A-F |
| Routes.ServerHash | EcoLedgerFlow/server/routes.ts:7-10 | the server's hash has the same shape as the client's: "0x", six hex digits, "...", six hex digits |
| Routes.HexInjective | EcoLedgerFlow/server/routes.ts:8 | equal hex encodings come from equal bytes |
| Routes.ServerHashInjective | EcoLedgerFlow/server/routes.ts:7-10 | the two halves together are the full encoding of the six bytes, so different bytes always give different hashes |
| Routes.MintCredit | EcoLedgerFlow/server/routes.ts:103-110 | the credit insert of a verify: the plantation's id, its NGO as issuer and owner, its stored credit count, price 25.00, available; no contract of its own, see Workflow.VerifyMints |
| Routes.MintEntry | EcoLedgerFlow/server/routes.ts:113-121 | the mint entry's insert: from nobody to the NGO, for the new credit and the plantation's credit count, confirmed; no contract of its own, see Workflow.VerifyMints |
| Routes.TransferEntry | EcoLedgerFlow/server/routes.ts:196-204 | the transfer entry's insert: from the owner before the sale to the buyer, for the whole credit, confirmed; no contract of its own, see Workflow.PurchaseTransfers |
| Routes.VerifySpec | EcoLedgerFlow/server/routes.ts:93-127 | the verify handler on a database: status update, then credit insert, then mint insert, stopping at the first refusal; no contract of its own, see Workflow.VerifyRefused, VerifyMints, VerifyHashClash and VerifyLedgered |
| Routes.RejectSpec | EcoLedgerFlow/server/routes.ts:129-139 | the reject handler on a database: one status write; no contract of its own, see Workflow.RejectKeepsCredits |
| Routes.PurchaseSpec | EcoLedgerFlow/server/routes.ts:179-210 | the purchase handler on a database: lookup, availability check, transfer, then the transfer entry; no contract of its own, see Workflow.PurchaseRefused, PurchaseTransfers and PurchaseLedgered |
| Routes.VerifyPlantation | EcoLedgerFlow/server/routes.ts:93-127 | performs the status update, the credit insert and the mint insert in order, with the outcome and database of VerifySpec for some fresh credit and entry ids; keeps the constraints |
| Routes.RejectPlantation | EcoLedgerFlow/server/routes.ts:129-139 | a single status write, with the outcome and database of RejectSpec |
| Routes.PurchaseCredit | EcoLedgerFlow/server/routes.ts:179-210 | performs the lookup, the availability check, the transfer and the transfer insert in order, with the outcome and database of PurchaseSpec for some fresh entry id; keeps the constraints |
| Routes.StatsOf | EcoLedgerFlow/server/routes.ts:248-256 | the reference value of the stats: the number of entries, the set sum of the available credits' amounts, and their number; no contract of its own, Routes.Stats is proved equal to it |
| Routes.TotalAmount | EcoLedgerFlow/server/routes.ts:250 | the `reduce` as a left fold over the rows; no contract of its own, see Routes.RowsAmount |
| Routes.AmountOverRemove | EcoLedgerFlow/server/routes.ts:250 | the sum over a set of credits can take out any one of them first |
| Routes.RowsAmount | EcoLedgerFlow/server/routes.ts:249-250 | the `reduce` over a list of distinct rows equals the sum over the set of their ids, and the list is as long as the set |
| Routes.RowsCount | EcoLedgerFlow/server/routes.ts:248-253 | a list holding each entry of the table once is as long as the table |
| Routes.Stats | EcoLedgerFlow/server/routes.ts:246-260 | totalTransactions counts every entry; availableCredits counts the available credits; totalCreditsIssued sums the available credits only |
| Routes.SeededUserId | EcoLedgerFlow/server/routes.ts:33-39 | exactly the roles ngo, buyer and admin map to a seeded user id (ngo-001, buy-001, admin-001) |
| Routes.Login | EcoLedgerFlow/server/routes.ts:25-49 | found exactly when the role maps to a seeded id that is a user, and then that user's profile without the password; otherwise not found |
| Workflow.CreatePlantationLedgered | EcoLedgerFlow/server/storage.ts:149-157 | a new plantation keeps the ledger invariant: it is pending and its credit count follows the rule |
| Workflow.VerifyLedgered | EcoLedgerFlow/server/routes.ts:93-121 | verify keeps the ledger invariant in every outcome, partial failures included |
| Workflow.RejectLedgered | EcoLedgerFlow/server/routes.ts:129-139 | reject keeps the ledger invariant |
| Workflow.PurchaseLedgered | EcoLedgerFlow/server/routes.ts:179-204 | purchase keeps the ledger invariant in every outcome |
| Workflow.NoEntryFor | EcoLedgerFlow/shared/schema.ts:46 | under the invariant, no ledger entry names a credit id that is not in the table |
| Workflow.NoTransferYet | EcoLedgerFlow/server/routes.ts:188-204 | under the invariant, a credit still for sale has no transfer entry |
| Workflow.SampleDataLedgered | EcoLedgerFlow/server/storage.ts:76-110 | the seeded plantation, credit and mint agree: 500 mangroves, 5 credits, credit amount 5, mint amount 5 |
| Workflow.VerifyRefused | EcoLedgerFlow/server/routes.ts:96-100 | verify of an unknown plantation is not found, and a verifier who is not a user fails the first write; in both cases nothing is written, so no credit and no entry |
| Workflow.VerifyMints | EcoLedgerFlow/server/routes.ts:103-123 | a verify of an existing plantation, with an absent or existing verifier and a hash not yet on the ledger, ends with: the plantation stamped verified; one new credit for that plantation, owned by its NGO, for its stored credit count, at 25.00, available; one confirmed mint entry from nobody to the NGO for the same amount; nothing else changed |
| Workflow.VerifyHashClash | EcoLedgerFlow/server/routes.ts:113-125 | if the mint entry's hash is already on the ledger, verify fails with a unique violation, and the verified plantation and the new credit stay written |
| Workflow.VerifyUpToEntry | EcoLedgerFlow/server/routes.ts:96-110 | under the constraints, with an absent or existing verifier, the status update and the credit insert of a verify cannot be refused, so the outcome is decided by the mint insert |
| Workflow.VerifiedRowIsStatusUpdate | EcoLedgerFlow/server/routes.ts:95-96 | the verify's status update, with an existing or absent verifier, writes and returns the plantation stamped verified at the current clock with its verifier, and advances the clock |
| Workflow.MintCreditSucceeds | EcoLedgerFlow/server/routes.ts:103-110 | under the constraints the verify's credit insert is never refused and writes the available credit for the plantation's count, owned by its NGO, at 25.00 |
| Workflow.MintEntryOutcome | EcoLedgerFlow/server/routes.ts:113-121 | the verify's mint insert succeeds exactly when its hash is not yet on the ledger, writing the confirmed entry from nobody to the NGO; otherwise it is refused as a unique violation and nothing changes |
| Workflow.ReverifyMintsAgain | EcoLedgerFlow/server/routes.ts:93-121 | verifying a plantation that is already verified or rejected, with an absent or existing verifier and a hash not yet on the ledger, succeeds again and adds another credit and another entry |
| Workflow.RejectKeepsCredits | EcoLedgerFlow/server/routes.ts:129-139 | reject changes only the plantation's status: the verification stamp, every credit and every entry stay as they were; an unknown id is not found and changes nothing |
| Workflow.PurchaseRefused | EcoLedgerFlow/server/routes.ts:182-190 | purchase of an unknown credit is not found, and of a credit that is not available is not available; neither writes anything |
| Workflow.PurchaseTransfers | EcoLedgerFlow/server/routes.ts:188-206 | a purchase of an available credit by a user gives the buyer the credit as sold and adds one confirmed transfer entry from the prior owner to the buyer for the full amount; nothing else changes. A hash already on the ledger fails the entry, and the credit stays sold |
| Workflow.NoSecondSale | EcoLedgerFlow/server/routes.ts:188-190 | once a purchase succeeds, every later purchase of that credit is refused as not available and writes nothing |
| Workflow.AtMostOneTransfer | EcoLedgerFlow/server/routes.ts:188-204 | under the invariant, each credit has at most one transfer entry, and a credit with one is sold |
| Workflow.AmountOverFrame | EcoLedgerFlow/server/routes.ts:250 | the sum over some credits depends only on their amounts |
| Workflow.StatsAfterMint | EcoLedgerFlow/server/routes.ts:248-256 | one new available credit and one new entry raise both counts by one and the supply by the credit's amount |
| Workflow.StatsAfterSale | EcoLedgerFlow/server/routes.ts:248-256 | selling an available credit and adding one entry adds one entry, takes one credit off sale, and lowers the supply by the credit's amount |
| Workflow.VerifyStats | EcoLedgerFlow/server/routes.ts:246-256 | a successful verify adds one to totalTransactions and one to availableCredits, and adds the plantation's credit count to totalCreditsIssued |
| Workflow.PurchaseStats | EcoLedgerFlow/server/routes.ts:246-256 | a successful purchase adds one to totalTransactions, takes one off availableCredits, and lowers totalCreditsIssued by the credit's amount |
| Workflow.RejectStats | EcoLedgerFlow/server/routes.ts:246-256 | reject leaves all three stats as they were |
| Workflow.SeededLogin | EcoLedgerFlow/server/routes.ts:33-39 | on the seeded database each login role reaches a user with that very role |
| Workflow.SampleHashShaped | EcoLedgerFlow/server/storage.ts:103 | the seeded mint's hash has the shape both generators produce |
| Navbar.NavItems | EcoLedgerFlow/client/src/components/navbar.tsx:16-22 | the five menu items in order with their role tags (icons left out); a constant, see the menu lemmas below |
| Navbar.Shown | EcoLedgerFlow/client/src/components/navbar.tsx:24-27 | the filter's test: tagged "all", or a signed-in user whose role the item lists; no contract of its own, see Navbar.VisibleItems |
| Navbar.VisibleItems | EcoLedgerFlow/client/src/components/navbar.tsx:24-27 | an item is shown exactly when it is in the menu and is tagged "all" or lists the signed-in user's role |
| Navbar.VisibleInMenuOrder | EcoLedgerFlow/client/src/components/navbar.tsx:24-27 | the shown items are a subsequence of the menu, in menu order |
| Navbar.VisibleCounts | EcoLedgerFlow/client/src/components/navbar.tsx:24-27 | every shown item appears as many times as in the menu, every other item not at all |
| Navbar.HomeAndLedgerAlwaysShown | EcoLedgerFlow/client/src/components/navbar.tsx:16-27 | Home and Ledger are shown to every visitor, signed in or not |
| Navbar.SignedOutMenu | EcoLedgerFlow/client/src/components/navbar.tsx:16-27 | without a user, exactly the items tagged "all" are shown: Home, then Ledger |
| Navbar.AdminOnlyForAdmins | EcoLedgerFlow/client/src/components/navbar.tsx:21-26 | the Admin item is shown exactly when the role is admin |
| Navbar.AdminMenu | EcoLedgerFlow/client/src/components/navbar.tsx:16-27 | an admin sees all five items, in menu order |
| Navbar.NgoMenu | EcoLedgerFlow/client/src/components/navbar.tsx:16-27 | an NGO sees Home, NGO Portal and Ledger |
| Navbar.BuyerMenu | EcoLedgerFlow/client/src/components/navbar.tsx:16-27 | a buyer sees Home, Marketplace and Ledger |

## Left out

- The Neon/Drizzle connection is replaced by in-memory maps. Each statement
  is atomic.
- Concurrent requests are not modelled. Requests run one after another, so
  the races between two purchases or two verifies of the same row are out of
  scope.
- Of the `try`/`catch` 500 paths, only the database's refusals are modelled:
  constraint violations and integer overflow. Connection and driver failures
  are not.
- The `console.log` calls are not modelled.
- The failed seeding path is not modelled: `initializeSampleData` catches
  errors and the store constructor does not await it.
- The `x-user-id` header middleware is trust-the-caller plumbing and is not
  modelled.
- The unused `getTransactions()` call inside login is not modelled, and
  neither is the request's unused `username`.
- The enrichment joins in `GET /api/credits/available` and
  `GET /api/transactions` only attach display fields. They are left out.
- The remaining plain GET routes are not modelled separately. Each passes
  one store query through, and the store's methods model those queries.
- `POST /api/plantations` is modelled by `LedgerStore.CreatePlantation`
  together with `Workflow.CreatePlantationLedgered`. Request-body validation
  is outside the model.
- Latitude, longitude and price are decimals and are kept as their text.
- Storage.InsertPlantation: the database's refusal of a latitude or
  longitude that is not a number or does not fit `numeric(10,6)` is not
  modelled (the decimals are opaque text), nor the 400 the create route
  returns for it; the refusals modelled are the integer range and the
  foreign key.
- Storage.InsertCredit: likewise, a price that does not fit
  `numeric(10,2)` is not refused in the model.
- Timestamps are a counter: only their order is modelled, not wall-clock
  values.
- Randomness is taken as parameters:
  - `randomUUID` is a fresh key;
  - `randomBytes(6)` is six bytes;
  - `Math.random` is the twelve digit choices.
- Routes.PurchaseCredit: `buyerId` is always a string. A request without
  `buyerId` (undefined in JavaScript) is not modelled.
- Routes.Login: does not model the 500 path of a failing store.
- Routes.Stats: requires the store's constraints to hold. The creation
  stamps must be distinct for the rows to come back in a strict order. The
  constraints hold after every store operation.
- Storage.LedgerStore.GetUserByUsername: requires the constraints, so that
  the unique username makes the match the only one.
- The React pages, the App shell (session restore, `fetch` patching, route
  guards) and `cn` are presentation or I/O, and are not part of this model.
- The client's `calculateCredits` and the store's credit rule are the same
  expression, so both use `Utils.CalculateCredits`.

=== FILE: navbar.dfy ===
/** The navigation bar's role filter: which of the fixed menu items a
    visitor sees, given the role of the signed-in user, if any. */
module Navbar {
  import opened Schema

  /** A menu entry (`label` is called `caption` here); the icon is left out. */
  datatype NavItem = NavItem(path: string, caption: string, roles: seq<string>)

  const HomeItem: NavItem := NavItem("/", "Home", ["all"])
  const NgoItem: NavItem := NavItem("/ngo", "NGO Portal", ["ngo", "admin"])
  const MarketplaceItem: NavItem := NavItem("/marketplace", "Marketplace", ["buyer", "admin"])
  const LedgerItem: NavItem := NavItem("/ledger", "Ledger", ["all"])
  const AdminItem: NavItem := NavItem("/admin", "Admin", ["admin"])

  /** `navItems`, in menu order. */
  const NavItems: seq<NavItem> := [HomeItem, NgoItem, MarketplaceItem, LedgerItem, AdminItem]

  /** The filter's test: an item tagged "all" is shown to everyone, any other
      item only to a signed-in user whose role it lists. */
  predicate Shown(item: NavItem, role: Option<string>)
  {
    "all" in item.roles || (role.Some? && role.value in item.roles)
  }

  /** `visibleItems`: the items that pass the test, in their menu order. */
  function VisibleItems(items: seq<NavItem>, role: Option<string>): (visible: seq<NavItem>)
    ensures forall item :: item in visible <==> item in items && Shown(item, role)
    ensures |visible| <= |items|
  {
    if items == [] then []
    else (if Shown(items[0], role) then [items[0]] else []) + VisibleItems(items[1..], role)
  }

  /** `sub` is `s` with some elements dropped and the rest kept in order. */
  predicate IsSubsequence<T(==)>(sub: seq<T>, s: seq<T>)
    decreases |s|
  {
    if sub == [] then true
    else if s == [] then false
    else if sub[0] == s[0] then IsSubsequence(sub[1..], s[1..])
    else IsSubsequence(sub, s[1..])
  }

  /** Filtering keeps the menu order. */
  lemma {:induction false} VisibleInMenuOrder(items: seq<NavItem>, role: Option<string>)
    ensures IsSubsequence(VisibleItems(items, role), items)
  {
    if items != [] {
      VisibleInMenuOrder(items[1..], role);
      var rest := VisibleItems(items[1..], role);
      if Shown(items[0], role) {
        assert VisibleItems(items, role) == [items[0]] + rest;
        assert ([items[0]] + rest)[1..] == rest;
      } else {
        assert VisibleItems(items, role) == rest;
        if rest != [] {
          assert rest[0] in VisibleItems(items[1..], role);
          assert rest[0] != items[0];
        }
      }
    }
  }

  /** Filtering keeps every shown item as often as the menu has it and drops
      every other item. */
  lemma {:induction false} VisibleCounts(items: seq<NavItem>, role: Option<string>)
    ensures forall item :: multiset(VisibleItems(items, role))[item]
                           == if Shown(item, role) then multiset(items)[item] else 0
  {
    if items != [] {
      VisibleCounts(items[1..], role);
      assert items == [items[0]] + items[1..];
      var head := if Shown(items[0], role) then [items[0]] else [];
      assert VisibleItems(items, role) == head + VisibleItems(items[1..], role);
      assert multiset(VisibleItems(items, role)) == multiset(head) + multiset(VisibleItems(items[1..], role));
      assert multiset(items) == multiset([items[0]]) + multiset(items[1..]);
    }
  }

  function Keep(item: NavItem, role: Option<string>): seq<NavItem>
  {
    if Shown(item, role) then [item] else []
  }

  lemma VisibleCons(item: NavItem, rest: seq<NavItem>, role: Option<string>)
    ensures VisibleItems([item] + rest, role) == Keep(item, role) + VisibleItems(rest, role)
  {
    assert ([item] + rest)[1..] == rest;
  }

  /** The filter over the menu, item by item. */
  lemma MenuFor(role: Option<string>)
    ensures VisibleItems(NavItems, role)
         == Keep(HomeItem, role) + (Keep(NgoItem, role) + (Keep(MarketplaceItem, role)
            + (Keep(LedgerItem, role) + Keep(AdminItem, role))))
  {
    VisibleCons(AdminItem, [], role);
    assert [AdminItem] + [] == [AdminItem];
    assert Keep(AdminItem, role) + [] == Keep(AdminItem, role);
    VisibleCons(LedgerItem, [AdminItem], role);
    VisibleCons(MarketplaceItem, [LedgerItem, AdminItem], role);
    VisibleCons(NgoItem, [MarketplaceItem, LedgerItem, AdminItem], role);
    VisibleCons(HomeItem, [NgoItem, MarketplaceItem, LedgerItem, AdminItem], role);
  }

  /** Home and Ledger are shown to every visitor, signed in or not. */
  lemma HomeAndLedgerAlwaysShown(role: Option<string>)
    ensures HomeItem in VisibleItems(NavItems, role) && LedgerItem in VisibleItems(NavItems, role)
  {
    assert HomeItem in NavItems && LedgerItem in NavItems;
  }

  /** Without a signed-in user exactly the items tagged "all" are shown. */
  lemma SignedOutMenu()
    ensures forall item :: item in VisibleItems(NavItems, None) <==> item in NavItems && "all" in item.roles
    ensures VisibleItems(NavItems, None) == [HomeItem, LedgerItem]
  {
    MenuFor(None);
  }

  /** The Admin item is shown to admins and to nobody else. */
  lemma AdminOnlyForAdmins(role: Option<string>)
    ensures AdminItem in VisibleItems(NavItems, role) <==> role == Some("admin")
  {
    assert AdminItem in NavItems;
    if role.Some? && role.value in AdminItem.roles {
      assert role.value == "admin";
    }
  }

  /** When every item passes the test, the filter returns the menu as it is. */
  lemma {:induction false} AllShown(items: seq<NavItem>, role: Option<string>)
    requires forall i :: 0 <= i < |items| ==> Shown(items[i], role)
    ensures VisibleItems(items, role) == items
  {
    if items != [] {
      AllShown(items[1..], role);
      assert [items[0]] + items[1..] == items;
    }
  }

  /** An admin sees the whole menu. */
  lemma AdminMenu()
    ensures VisibleItems(NavItems, Some("admin")) == NavItems
  {
    AdminKeeps();
    AllShown(NavItems, Some("admin"));
  }

  lemma AdminKeeps()
    ensures forall i :: 0 <= i < |NavItems| ==> Shown(NavItems[i], Some("admin"))
  {
  }

  /** An NGO sees Home, NGO Portal and Ledger. */
  lemma NgoMenu()
    ensures VisibleItems(NavItems, Some("ngo")) == [HomeItem, NgoItem, LedgerItem]
  {
    NgoKeeps();
    MenuFor(Some("ngo"));
  }

  lemma NgoKeeps()
    ensures Keep(HomeItem, Some("ngo")) == [HomeItem] && Keep(NgoItem, Some("ngo")) == [NgoItem]
    ensures Keep(MarketplaceItem, Some("ngo")) == [] && Keep(LedgerItem, Some("ngo")) == [LedgerItem]
    ensures Keep(AdminItem, Some("ngo")) == []
  {
  }

  /** A buyer sees Home, Marketplace and Ledger. */
  lemma BuyerMenu()
    ensures VisibleItems(NavItems, Some("buyer")) == [HomeItem, MarketplaceItem, LedgerItem]
  {
    BuyerKeeps();
    MenuFor(Some("buyer"));
  }

  lemma BuyerKeeps()
    ensures Keep(HomeItem, Some("buyer")) == [HomeItem] && Keep(NgoItem, Some("buyer")) == []
    ensures Keep(MarketplaceItem, Some("buyer")) == [MarketplaceItem] && Keep(LedgerItem, Some("buyer")) == [LedgerItem]
    ensures Keep(AdminItem, Some("buyer")) == []
  {
  }
}

=== FILE: routes.dfy ===
/** The workflow handlers of the API server with the HTTP layer stripped off:
    verify, reject and purchase as ordered sequences of store writes, the
    dashboard stats, and the demo login. A 404 becomes `NotFound`, the
    purchase handler's 400 becomes `NotAvailable`, and a store statement that
    the database refuses (the 500 path) becomes `Failed` with the state its
    earlier statements left behind: the handlers run no transaction. */
module Routes {
  import opened Schema
  import Utils
  import Storage

  datatype Outcome<T> = Ok(value: T) | NotFound | NotAvailable | Failed(error: DbError)

  /** The body of a successful verify: `{ plantation, credit, transaction }`. */
  datatype Minted = Minted(plantation: Plantation, credit: Credit, transaction: Transaction)

  /** The body of a successful purchase: `{ credit: updatedCredit, transaction }`. */
  datatype Sale = Sale(credit: Option<Credit>, transaction: Transaction)

  /** The user fields login returns; the password is not among them. */
  datatype Profile = Profile(id: Id, username: string, role: string, organizationName: Option<string>)

  datatype StatsView = StatsView(totalTransactions: int, totalCreditsIssued: int, availableCredits: int)

  type Byte = b: int | 0 <= b < 256

  // ---------------------------------------------------------------------
  // The server's transaction hash

  /** `toString('hex').toUpperCase()`: two upper-case digits per byte. */
  function Hex(bytes: seq<Byte>): (h: string)
    ensures |h| == 2 * |bytes|
    ensures forall i :: 0 <= i < |h| ==> h[i] in Utils.HexDigits
  {
    if bytes == [] then ""
    else [Utils.HexDigits[bytes[0] / 16], Utils.HexDigits[bytes[0] % 16]] + Hex(bytes[1..])
  }

  /** `generateTransactionHash` of the server: six random bytes, the first six
      and the last six of their twelve hex digits around "...". */
  function ServerHash(entropy: seq<Byte>): (h: string)
    requires |entropy| == 6
    ensures Utils.HashShaped(h)
  {
    var hex := Hex(entropy);
    "0x" + hex[..6] + "..." + hex[|hex| - 6..]
  }

  lemma DigitsDistinct(i: int, j: int)
    requires 0 <= i < 16 && 0 <= j < 16 && Utils.HexDigits[i] == Utils.HexDigits[j]
    ensures i == j
  {
  }

  /** A byte is fixed by its two hex digits. */
  lemma ByteFromDigits(x: Byte, y: Byte)
    requires Utils.HexDigits[x / 16] == Utils.HexDigits[y / 16]
    requires Utils.HexDigits[x % 16] == Utils.HexDigits[y % 16]
    ensures x == y
  {
    DigitsDistinct(x / 16, y / 16);
    DigitsDistinct(x % 16, y % 16);
  }

  lemma HexCons(a: seq<Byte>)
    requires a != []
    ensures Hex(a)[0] == Utils.HexDigits[a[0] / 16] && Hex(a)[1] == Utils.HexDigits[a[0] % 16]
    ensures Hex(a)[2..] == Hex(a[1..])
  {
  }

  /** Hex encoding loses nothing: equal encodings come from equal bytes. */
  lemma {:induction false} HexInjective(a: seq<Byte>, b: seq<Byte>)
    requires |a| == |b| && Hex(a) == Hex(b)
    ensures a == b
  {
    if a != [] {
      HexCons(a);
      HexCons(b);
      ByteFromDigits(a[0], b[0]);
      HexInjective(a[1..], b[1..]);
      assert a == [a[0]] + a[1..] && b == [b[0]] + b[1..];
    }
  }

  /** The server's hash keeps all six random bytes: its two halves are the
      whole twelve-digit encoding, so different bytes give different hashes. */
  lemma ServerHashInjective(a: seq<Byte>, b: seq<Byte>)
    requires |a| == 6 && |b| == 6 && ServerHash(a) == ServerHash(b)
    ensures a == b
  {
    var h := ServerHash(a);
    assert Hex(a) == Hex(a)[..6] + Hex(a)[6..];
    assert Hex(a) == h[2..8] + h[11..17];
    assert Hex(b) == h[2..8] + h[11..17];
    HexInjective(a, b);
  }

  // ---------------------------------------------------------------------
  // The handlers as functions on the database

  /** The credit a verify mints: the plantation's stored credit count, owned
      by its NGO, at the fixed price. */
  function MintCredit(p: Plantation): NewCredit
  {
    NewCredit(p.id, p.ngoId, p.ngoId, p.creditsEarned, Some("25.00"), Some(Available))
  }

  /** The ledger entry of a mint: from nobody to the NGO. */
  function MintEntry(p: Plantation, c: Credit, hash: string): NewTransaction
  {
    NewTransaction(hash, Mint, None, p.ngoId, Some(c.id), p.creditsEarned, Some(Confirmed))
  }

  /** The ledger entry of a sale: from the owner before the sale to the buyer,
      for the whole credit. */
  function TransferEntry(c: Credit, buyerId: Id, hash: string): NewTransaction
  {
    NewTransaction(hash, Transfer, Some(c.currentOwnerId), buyerId, Some(c.id), c.amount, Some(Confirmed))
  }

  /** `PATCH /api/plantations/:id/verify`. Nothing checks the current status,
      so a verified or rejected plantation is verified (and minted) again. */
  function VerifySpec(db: Db, id: Id, verifiedBy: Option<Id>, hash: string, creditId: Id, txId: Id)
    : Storage.Step<Outcome<Minted>>
    requires creditId !in db.credits && txId !in db.transactions
  {
    var s1 := Storage.SetPlantationStatus(db, id, Verified, verifiedBy);
    if s1.result.Err? then Storage.Step(s1.db, Failed(s1.result.error))
    else if s1.result.value.None? then Storage.Step(s1.db, NotFound)
    else
      var p := s1.result.value.value;
      var s2 := Storage.InsertCredit(s1.db, MintCredit(p), creditId);
      if s2.result.Err? then Storage.Step(s2.db, Failed(s2.result.error))
      else
        var c := s2.result.value;
        var s3 := Storage.InsertTransaction(s2.db, MintEntry(p, c, hash), txId);
        if s3.result.Err? then Storage.Step(s3.db, Failed(s3.result.error))
        else Storage.Step(s3.db, Ok(Minted(p, c, s3.result.value)))
  }

  /** `PATCH /api/plantations/:id/reject`: the status alone. */
  function RejectSpec(db: Db, id: Id): Storage.Step<Outcome<Plantation>>
  {
    var s := Storage.SetPlantationStatus(db, id, Rejected, None);
    if s.result.Err? then Storage.Step(s.db, Failed(s.result.error))
    else if s.result.value.None? then Storage.Step(s.db, NotFound)
    else Storage.Step(s.db, Ok(s.result.value.value))
  }

  /** `POST /api/credits/:id/purchase`. */
  function PurchaseSpec(db: Db, creditId: Id, buyerId: Id, hash: string, txId: Id)
    : Storage.Step<Outcome<Sale>>
    requires txId !in db.transactions
  {
    if creditId !in db.credits then Storage.Step(db, NotFound)
    else
      var c := db.credits[creditId];
      if c.status != Available then Storage.Step(db, NotAvailable)
      else
        var s1 := Storage.Reassign(db, creditId, buyerId);
        if s1.result.Err? then Storage.Step(s1.db, Failed(s1.result.error))
        else
          var s2 := Storage.InsertTransaction(s1.db, TransferEntry(c, buyerId, hash), txId);
          if s2.result.Err? then Storage.Step(s2.db, Failed(s2.result.error))
          else Storage.Step(s2.db, Ok(Sale(s1.result.value, s2.result.value)))
  }

  // ---------------------------------------------------------------------
  // The handlers over the store

  method VerifyPlantation(store: Storage.LedgerStore, id: Id, verifiedBy: Option<Id>, entropy: seq<Byte>)
    returns (r: Outcome<Minted>)
    requires store.Valid() && |entropy| == 6
    modifies store
    ensures store.Valid()
    ensures exists creditId, txId ::
      && creditId !in old(store.credits) && txId !in old(store.transactions)
      && VerifySpec(old(store.State()), id, verifiedBy, ServerHash(entropy), creditId, txId) == Storage.Step(store.State(), r)
  {
    ghost var before := store.State();
    Storage.FreshIdExists(store.credits.Keys);
    Storage.FreshIdExists(store.transactions.Keys);
    ghost var creditId: Id :| creditId !in store.credits;
    ghost var txId: Id :| txId !in store.transactions;
    var updated := store.UpdatePlantationStatus(id, Verified, verifiedBy);
    if updated.Err? {
      r := Failed(updated.error);
    } else if updated.value.None? {
      r := NotFound;
    } else {
      var plantation := updated.value.value;
      ghost var afterStatus := store.State();
      var credit := store.CreateCredit(MintCredit(plantation));
      creditId :| creditId !in afterStatus.credits
        && Storage.InsertCredit(afterStatus, MintCredit(plantation), creditId) == Storage.Step(store.State(), credit);
      match credit {
        case Err(e) =>
          r := Failed(e);
        case Ok(minted) =>
          ghost var afterCredit := store.State();
          var transaction := store.CreateTransaction(MintEntry(plantation, minted, ServerHash(entropy)));
          txId :| txId !in afterCredit.transactions
            && Storage.InsertTransaction(afterCredit, MintEntry(plantation, minted, ServerHash(entropy)), txId)
               == Storage.Step(store.State(), transaction);
          if transaction.Err? {
            r := Failed(transaction.error);
          } else {
            r := Ok(Minted(plantation, minted, transaction.value));
          }
      }
    }
    assert VerifySpec(before, id, verifiedBy, ServerHash(entropy), creditId, txId) == Storage.Step(store.State(), r);
  }

  method RejectPlantation(store: Storage.LedgerStore, id: Id) returns (r: Outcome<Plantation>)
    requires store.Valid()
    modifies store
    ensures store.Valid()
    ensures RejectSpec(old(store.State()), id) == Storage.Step(store.State(), r)
  {
    var updated := store.UpdatePlantationStatus(id, Rejected, None);
    if updated.Err? {
      r := Failed(updated.error);
    } else if updated.value.None? {
      r := NotFound;
    } else {
      r := Ok(updated.value.value);
    }
  }

  method PurchaseCredit(store: Storage.LedgerStore, creditId: Id, buyerId: Id, entropy: seq<Byte>)
    returns (r: Outcome<Sale>)
    requires store.Valid() && |entropy| == 6
    modifies store
    ensures store.Valid()
    ensures exists txId ::
      && txId !in old(store.transactions)
      && PurchaseSpec(old(store.State()), creditId, buyerId, ServerHash(entropy), txId) == Storage.Step(store.State(), r)
  {
    ghost var before := store.State();
    Storage.FreshIdExists(store.transactions.Keys);
    ghost var txId: Id :| txId !in store.transactions;
    var credit := store.GetCredit(creditId);
    if credit.None? {
      r := NotFound;
    } else if credit.value.status != Available {
      r := NotAvailable;
    } else {
      var updated := store.TransferCredit(creditId, buyerId);
      if updated.Err? {
        r := Failed(updated.error);
      } else {
        ghost var afterTransfer := store.State();
        var transaction := store.CreateTransaction(TransferEntry(credit.value, buyerId, ServerHash(entropy)));
        txId :| txId !in afterTransfer.transactions
          && Storage.InsertTransaction(afterTransfer, TransferEntry(credit.value, buyerId, ServerHash(entropy)), txId)
             == Storage.Step(store.State(), transaction);
        if transaction.Err? {
          r := Failed(transaction.error);
        } else {
          r := Ok(Sale(updated.value, transaction.value));
        }
      }
    }
    assert PurchaseSpec(before, creditId, buyerId, ServerHash(entropy), txId) == Storage.Step(store.State(), r);
  }

  // ---------------------------------------------------------------------
  // Dashboard stats

  /** The ids of the credits still for sale. */
  ghost function AvailableIds(db: Db): set<Id>
  {
    set k | k in db.credits && db.credits[k].status == Available
  }

  /** The sum of the amounts of some credits, as a set sum. */
  ghost function AmountOver(credits: map<Id, Credit>, ids: set<Id>): int
    requires ids <= credits.Keys
    decreases ids
  {
    if ids == {} then 0
    else
      var k :| k in ids;
      credits[k].amount + AmountOver(credits, ids - {k})
  }

  /** What `/api/stats` reports: every transaction is counted, but only the
      credits still for sale are counted and summed. */
  ghost function StatsOf(db: Db): StatsView
    requires AvailableIds(db) <= db.credits.Keys
  {
    StatsView(|db.transactions|, AmountOver(db.credits, AvailableIds(db)), |AvailableIds(db)|)
  }

  /** `credits.reduce((sum, credit) => sum + credit.amount, 0)`. */
  function TotalAmount(rows: seq<Credit>): int
  {
    if rows == [] then 0 else TotalAmount(rows[..|rows| - 1]) + rows[|rows| - 1].amount
  }

  /** A set sum may take out any of its elements first. */
  lemma {:induction false} AmountOverRemove(credits: map<Id, Credit>, ids: set<Id>, k: Id)
    requires ids <= credits.Keys && k in ids
    ensures AmountOver(credits, ids) == credits[k].amount + AmountOver(credits, ids - {k})
    decreases ids
  {
    var j :| j in ids && AmountOver(credits, ids) == credits[j].amount + AmountOver(credits, ids - {j});
    if j != k {
      AmountOverRemove(credits, ids - {j}, k);
      AmountOverRemove(credits, ids - {k}, j);
      assert ids - {j} - {k} == ids - {k} - {j};
    }
  }

  /** Rows listing each row of `ids` once sum to the set sum over `ids`, and
      there are as many rows as ids. */
  lemma {:induction false} RowsAmount(rows: seq<Credit>, credits: map<Id, Credit>, ids: set<Id>)
    requires ids <= credits.Keys
    requires forall i :: 0 <= i < |rows| ==> rows[i].id in ids && credits[rows[i].id] == rows[i]
    requires forall k :: k in ids ==> credits[k] in rows && credits[k].id == k
    requires forall i, j :: 0 <= i < j < |rows| ==> rows[i] != rows[j]
    ensures |rows| == |ids| && TotalAmount(rows) == AmountOver(credits, ids)
  {
    if rows != [] {
      var last := rows[|rows| - 1];
      var front := rows[..|rows| - 1];
      var k := last.id;
      forall i | 0 <= i < |front| ensures front[i].id in ids - {k} {
        assert rows[i] != last;
      }
      forall k' | k' in ids - {k} ensures credits[k'] in front {
        var i :| 0 <= i < |rows| && rows[i] == credits[k'];
      }
      RowsAmount(front, credits, ids - {k});
      AmountOverRemove(credits, ids, k);
    }
  }

  /** Rows listing each row of a keyed table once are as many as its keys. */
  lemma {:induction false} RowsCount(rows: seq<Transaction>, transactions: map<Id, Transaction>)
    requires forall i :: 0 <= i < |rows| ==> rows[i].id in transactions && transactions[rows[i].id] == rows[i]
    requires forall k :: k in transactions ==> transactions[k] in rows && transactions[k].id == k
    requires forall i, j :: 0 <= i < j < |rows| ==> rows[i] != rows[j]
    ensures |rows| == |transactions|
  {
    if rows != [] {
      var last := rows[|rows| - 1];
      var front := rows[..|rows| - 1];
      var rest := transactions - {last.id};
      forall i | 0 <= i < |front| ensures front[i].id in rest {
        assert rows[i] != last;
      }
      forall k | k in rest ensures rest[k] in front {
        var i :| 0 <= i < |rows| && rows[i] == transactions[k];
      }
      RowsCount(front, rest);
      assert |rest| == |transactions| - 1 by {
        assert rest.Keys == transactions.Keys - {last.id};
      }
    }
  }

  /** `GET /api/stats`. */
  method Stats(store: Storage.LedgerStore) returns (s: StatsView)
    requires store.Valid()
    ensures AvailableIds(store.State()) <= store.credits.Keys
    ensures s == StatsOf(store.State())
  {
    var transactions := store.GetTransactions();
    var credits := store.GetAvailableCredits();
    s := StatsView(|transactions|, TotalAmount(credits), |credits|);
    ghost var db := store.State();
    forall i | 0 <= i < |transactions|
      ensures transactions[i].id in db.transactions && db.transactions[transactions[i].id] == transactions[i]
    {
      assert transactions[i] in db.transactions.Values;
    }
    forall i, j | 0 <= i < j < |transactions| ensures transactions[i] != transactions[j] {
      assert transactions[i].createdAt > transactions[j].createdAt;
    }
    RowsCount(transactions, db.transactions);
    forall i | 0 <= i < |credits|
      ensures credits[i].id in AvailableIds(db) && db.credits[credits[i].id] == credits[i]
    {
      assert credits[i] in db.credits.Values;
    }
    forall i, j | 0 <= i < j < |credits| ensures credits[i] != credits[j] {
      assert credits[i].createdAt > credits[j].createdAt;
    }
    forall k | k in AvailableIds(db) ensures db.credits[k] in credits && db.credits[k].id == k {
      assert db.credits[k] in db.credits.Values;
    }
    RowsAmount(credits, db.credits, AvailableIds(db));
  }

  // ---------------------------------------------------------------------
  // Login

  /** The demo login's role table: each role logs in as its seeded user. */
  function SeededUserId(role: string): (id: Option<Id>)
    ensures id.Some? <==> role == "ngo" || role == "buyer" || role == "admin"
  {
    if role == "ngo" then Some("ngo-001")
    else if role == "buyer" then Some("buy-001")
    else if role == "admin" then Some("admin-001")
    else None
  }

  function ProfileOf(u: User): Profile
  {
    Profile(u.id, u.username, u.role, u.organizationName)
  }

  /** `POST /api/login`: the username in the request is not consulted. */
  method Login(store: Storage.LedgerStore, role: string) returns (r: Outcome<Profile>)
    ensures r.Ok? || r == NotFound
    ensures r.Ok? <==> SeededUserId(role).Some? && SeededUserId(role).value in store.users
    ensures r.Ok? ==> r.value == ProfileOf(store.users[SeededUserId(role).value])
  {
    var user: Option<User> := None;
    if role == "ngo" {
      user := store.GetUser("ngo-001");
    } else if role == "buyer" {
      user := store.GetUser("buy-001");
    } else if role == "admin" {
      user := store.GetUser("admin-001");
    }
    if user.None? {
      r := NotFound;
    } else {
      r := Ok(ProfileOf(user.value));
    }
  }
}

=== FILE: schema.dfy ===
/** The four tables of the ledger database (users, plantations, credits,
    transactions), the insert shapes callers hand to the store, and the
    constraints the database itself enforces: primary keys, the two unique
    columns, the foreign keys and the 32-bit range of `integer` columns.
    Beside them stand two invariants of the clock that stands for `now()`,
    which the database does not enforce: every stamp was taken before the
    clock's current value, and no two rows of a table share a `created_at`. */
module Schema {

  type Id = string

  /** A nullable column. */
  datatype Option<T> = None | Some(value: T)

  /** The value of an optional insert field, or the column default. */
  function OrDefault(s: Option<string>, default: string): string
  {
    match s
    case Some(v) => v
    case None => default
  }

  // The status and type values the application writes into the text columns.
  const Pending: string := "pending"
  const Verified: string := "verified"
  const Rejected: string := "rejected"
  const Available: string := "available"
  const Sold: string := "sold"
  const Confirmed: string := "confirmed"
  const Mint: string := "mint"
  const Transfer: string := "transfer"

  /** The range of a Postgres `integer` column. */
  predicate IsInt32(n: int)
  {
    -0x8000_0000 <= n <= 0x7FFF_FFFF
  }

  datatype User = User(
    id: Id,
    username: string,
    password: string,
    role: string,
    organizationName: Option<string>)

  /** `InsertUser`: a user row without its id. */
  datatype NewUser = NewUser(
    username: string,
    password: string,
    role: string,
    organizationName: Option<string>)

  /** Latitude and longitude are decimals and are kept as their text. */
  datatype Plantation = Plantation(
    id: Id,
    ngoId: Id,
    mangroveCount: int,
    latitude: string,
    longitude: string,
    notes: Option<string>,
    imageUrl: Option<string>,
    creditsEarned: int,
    status: string,
    createdAt: nat,
    verifiedAt: Option<nat>,
    verifiedBy: Option<Id>)

  /** `InsertPlantation`: id, creditsEarned, createdAt, verifiedAt and
      verifiedBy are omitted, so a caller cannot supply a credit amount;
      status is not omitted and stays an optional field. */
  datatype NewPlantation = NewPlantation(
    ngoId: Id,
    mangroveCount: int,
    latitude: string,
    longitude: string,
    notes: Option<string>,
    imageUrl: Option<string>,
    status: Option<string>)

  datatype Credit = Credit(
    id: Id,
    plantationId: Id,
    ngoId: Id,
    currentOwnerId: Id,
    amount: int,
    pricePerCredit: Option<string>,
    status: string,
    createdAt: nat)

  /** `InsertCredit`: every column but id and createdAt; status defaults to "available". */
  datatype NewCredit = NewCredit(
    plantationId: Id,
    ngoId: Id,
    currentOwnerId: Id,
    amount: int,
    pricePerCredit: Option<string>,
    status: Option<string>)

  /** The column `type` is called `kind` here. */
  datatype Transaction = Transaction(
    id: Id,
    transactionHash: string,
    kind: string,
    fromUserId: Option<Id>,
    toUserId: Id,
    creditId: Option<Id>,
    amount: int,
    status: string,
    createdAt: nat)

  /** `InsertTransaction`: every column but id and createdAt; status defaults to "confirmed". */
  datatype NewTransaction = NewTransaction(
    transactionHash: string,
    kind: string,
    fromUserId: Option<Id>,
    toUserId: Id,
    creditId: Option<Id>,
    amount: int,
    status: Option<string>)

  /** The database: each table maps a primary key to its row, and `clock` is
      the next value `now()` will give. */
  datatype Db = Db(
    users: map<Id, User>,
    plantations: map<Id, Plantation>,
    credits: map<Id, Credit>,
    transactions: map<Id, Transaction>,
    clock: nat)

  /** Why the database refuses a write. */
  datatype DbError = OutOfRange | UniqueViolation | ForeignKeyViolation

  predicate UsernameTaken(users: map<Id, User>, username: string)
  {
    exists id :: id in users && users[id].username == username
  }

  predicate HashTaken(transactions: map<Id, Transaction>, hash: string)
  {
    exists id :: id in transactions && transactions[id].transactionHash == hash
  }

  // The foreign keys of one row, against the keys of the tables it references.

  predicate PlantationRefs(userIds: set<Id>, p: Plantation)
  {
    p.ngoId in userIds && (p.verifiedBy.Some? ==> p.verifiedBy.value in userIds)
  }

  predicate CreditRefs(userIds: set<Id>, plantationIds: set<Id>, c: Credit)
  {
    c.plantationId in plantationIds && c.ngoId in userIds && c.currentOwnerId in userIds
  }

  predicate TransactionRefs(userIds: set<Id>, creditIds: set<Id>, t: Transaction)
  {
    && (t.fromUserId.Some? ==> t.fromUserId.value in userIds)
    && t.toUserId in userIds
    && (t.creditId.Some? ==> t.creditId.value in creditIds)
  }

  // One row meets its table's constraints: it is stored under its own id,
  // its references exist and its integers fit the column; and, by the
  // clock's invariant, its timestamps were taken before the clock's value.

  predicate PlantationRow(id: Id, p: Plantation, userIds: set<Id>, clock: nat)
  {
    && p.id == id
    && PlantationRefs(userIds, p)
    && IsInt32(p.mangroveCount) && IsInt32(p.creditsEarned)
    && p.createdAt < clock
    && (p.verifiedAt.Some? ==> p.verifiedAt.value < clock)
  }

  predicate CreditRow(id: Id, c: Credit, userIds: set<Id>, plantationIds: set<Id>, clock: nat)
  {
    c.id == id && CreditRefs(userIds, plantationIds, c) && IsInt32(c.amount) && c.createdAt < clock
  }

  predicate TransactionRow(id: Id, t: Transaction, userIds: set<Id>, creditIds: set<Id>, clock: nat)
  {
    t.id == id && TransactionRefs(userIds, creditIds, t) && IsInt32(t.amount) && t.createdAt < clock
  }

  /** The users table: rows under their own id, and `username` unique. */
  ghost predicate UsersOk(users: map<Id, User>)
  {
    && (forall id :: id in users ==> users[id].id == id)
    && (forall a, b :: a in users && b in users && a != b ==> users[a].username != users[b].username)
  }

  /** The plantations table: every row meets its constraints and, by the
      clock's invariant (no column constraint), no two rows share a
      `created_at`. */
  ghost predicate PlantationsOk(plantations: map<Id, Plantation>, userIds: set<Id>, clock: nat)
  {
    && (forall id :: id in plantations ==> PlantationRow(id, plantations[id], userIds, clock))
    && (forall a, b :: a in plantations && b in plantations && a != b ==>
          plantations[a].createdAt != plantations[b].createdAt)
  }

  ghost predicate CreditsOk(credits: map<Id, Credit>, userIds: set<Id>, plantationIds: set<Id>, clock: nat)
  {
    && (forall id :: id in credits ==> CreditRow(id, credits[id], userIds, plantationIds, clock))
    && (forall a, b :: a in credits && b in credits && a != b ==> credits[a].createdAt != credits[b].createdAt)
  }

  /** The transactions table; `transaction_hash` is unique as well. */
  ghost predicate TransactionsOk(transactions: map<Id, Transaction>, userIds: set<Id>, creditIds: set<Id>, clock: nat)
  {
    && (forall id :: id in transactions ==> TransactionRow(id, transactions[id], userIds, creditIds, clock))
    && (forall a, b :: a in transactions && b in transactions && a != b ==>
          transactions[a].createdAt != transactions[b].createdAt)
    && (forall a, b :: a in transactions && b in transactions && a != b ==>
          transactions[a].transactionHash != transactions[b].transactionHash)
  }

  /** What the database guarantees of its contents, together with the
      clock's invariants on the creation stamps. */
  ghost predicate Consistent(db: Db)
  {
    && UsersOk(db.users)
    && PlantationsOk(db.plantations, db.users.Keys, db.clock)
    && CreditsOk(db.credits, db.users.Keys, db.plantations.Keys, db.clock)
    && TransactionsOk(db.transactions, db.users.Keys, db.credits.Keys, db.clock)
  }

  // More users, plantations or credits to refer to, or a later clock, never
  // break a table's constraints.

  lemma PlantationsOkGrow(plantations: map<Id, Plantation>, userIds: set<Id>, clock: nat, userIds': set<Id>, clock': nat)
    requires PlantationsOk(plantations, userIds, clock) && userIds <= userIds' && clock <= clock'
    ensures PlantationsOk(plantations, userIds', clock')
  {
    forall id | id in plantations ensures PlantationRow(id, plantations[id], userIds', clock') {
      assert PlantationRow(id, plantations[id], userIds, clock);
    }
  }

  lemma CreditsOkGrow(credits: map<Id, Credit>, userIds: set<Id>, plantationIds: set<Id>, clock: nat,
                      userIds': set<Id>, plantationIds': set<Id>, clock': nat)
    requires CreditsOk(credits, userIds, plantationIds, clock)
    requires userIds <= userIds' && plantationIds <= plantationIds' && clock <= clock'
    ensures CreditsOk(credits, userIds', plantationIds', clock')
  {
    forall id | id in credits ensures CreditRow(id, credits[id], userIds', plantationIds', clock') {
      assert CreditRow(id, credits[id], userIds, plantationIds, clock);
    }
  }

  lemma TransactionsOkGrow(transactions: map<Id, Transaction>, userIds: set<Id>, creditIds: set<Id>, clock: nat,
                           userIds': set<Id>, creditIds': set<Id>, clock': nat)
    requires TransactionsOk(transactions, userIds, creditIds, clock)
    requires userIds <= userIds' && creditIds <= creditIds' && clock <= clock'
    ensures TransactionsOk(transactions, userIds', creditIds', clock')
  {
    forall id | id in transactions ensures TransactionRow(id, transactions[id], userIds', creditIds', clock') {
      assert TransactionRow(id, transactions[id], userIds, creditIds, clock);
    }
  }

  /** Every other table references users (directly or through plantations and
      credits), so a consistent database without users holds no rows at all. */
  lemma EmptyWithoutUsers(db: Db)
    requires Consistent(db) && db.users == map[]
    ensures db.plantations == map[] && db.credits == map[] && db.transactions == map[]
  {
    assert db.plantations.Keys == {};
    assert db.credits.Keys == {};
    assert db.transactions.Keys == {};
  }
}

=== FILE: storage.dfy ===
/** The ledger store (`DatabaseStorage`): inserts, filters and
    update-by-id on the four tables.

    Each write statement is specified by a function on `Db` values (the
    statement's effect on the database, including the database's refusals);
    the `LedgerStore` class holds the tables as fields and its methods carry
    out the statements step by step and are proved to have exactly the
    effect their function describes. */
module Storage {
  import opened Schema
  import Utils

  /** What a statement returns: the rows it produced, or the database error. */
  datatype Result<T> = Ok(value: T) | Err(error: DbError)

  /** The database after a statement, and the statement's result. */
  datatype Step<T> = Step(db: Db, result: T)

  // ---------------------------------------------------------------------
  // Write statements, as functions on the database

  /** `createUser`: one new row under the given fresh id; the unique index on
      `username` refuses a name already taken. */
  function InsertUser(db: Db, input: NewUser, id: Id): (s: Step<Result<User>>)
    requires id !in db.users
    ensures s.result.Err? <==> UsernameTaken(db.users, input.username)
    ensures s.result.Err? ==> s.db == db && s.result.error == UniqueViolation
    ensures s.result.Ok? ==>
      && s.result.value == User(id, input.username, input.password, input.role, input.organizationName)
      && s.db == db.(users := db.users[id := s.result.value])
  {
    if UsernameTaken(db.users, input.username) then Step(db, Err(UniqueViolation))
    else
      var row := User(id, input.username, input.password, input.role, input.organizationName);
      Step(db.(users := db.users[id := row]), Ok(row))
  }

  /** `createPlantation`: the credit rule fixes `creditsEarned`, and the status
      is forced to "pending" whatever the input says, because the override
      follows the spread of the input. */
  function InsertPlantation(db: Db, input: NewPlantation, id: Id): (s: Step<Result<Plantation>>)
    requires id !in db.plantations
    ensures s.result.Err? <==> !IsInt32(input.mangroveCount) || input.ngoId !in db.users
    ensures s.result.Err? ==> s.db == db
    ensures s.result.Ok? ==>
      var p := s.result.value;
      && p == Plantation(id, input.ngoId, input.mangroveCount, input.latitude, input.longitude,
                         input.notes, input.imageUrl, Utils.CalculateCredits(input.mangroveCount),
                         Pending, db.clock, None, None)
      && s.db == db.(plantations := db.plantations[id := p], clock := db.clock + 1)
  {
    var row := Plantation(id, input.ngoId, input.mangroveCount, input.latitude, input.longitude,
                          input.notes, input.imageUrl, Utils.CalculateCredits(input.mangroveCount),
                          Pending, db.clock, None, None);
    if !IsInt32(input.mangroveCount) then Step(db, Err(OutOfRange))
    else if input.ngoId !in db.users then Step(db, Err(ForeignKeyViolation))
    else Step(db.(plantations := db.plantations[id := row], clock := db.clock + 1), Ok(row))
  }

  /** `verifiedBy || null`: a missing or empty verifier id is stored as null. */
  function VerifierOrNull(verifiedBy: Option<Id>): Option<Id>
  {
    if verifiedBy.Some? && verifiedBy.value != "" then verifiedBy else None
  }

  /** `updatePlantationStatus`: on an absent id nothing matches and nothing
      changes. Setting "verified" also stamps `verifiedAt` and `verifiedBy`;
      any other status changes the status alone and keeps an earlier
      verification stamp. */
  function SetPlantationStatus(db: Db, id: Id, status: string, verifiedBy: Option<Id>)
    : (s: Step<Result<Option<Plantation>>>)
    ensures s.result == Ok(None) <==> id !in db.plantations
    ensures s.result == Ok(None) ==> s.db == db
    ensures s.result.Err? <==>
      status == Verified && id in db.plantations
      && VerifierOrNull(verifiedBy).Some? && VerifierOrNull(verifiedBy).value !in db.users
    ensures s.result.Err? ==> s.db == db && s.result.error == ForeignKeyViolation
    ensures s.result.Ok? && s.result.value.Some? ==>
      var before, after := db.plantations[id], s.result.value.value;
      && id in db.plantations
      && s.db.plantations == db.plantations[id := after]
      && s.db.users == db.users && s.db.credits == db.credits && s.db.transactions == db.transactions
      && after.status == status
      && (status == Verified ==>
            after == before.(status := status, verifiedAt := Some(db.clock), verifiedBy := VerifierOrNull(verifiedBy))
            && s.db.clock == db.clock + 1)
      && (status != Verified ==> after == before.(status := status) && s.db.clock == db.clock)
  {
    if id !in db.plantations then Step(db, Ok(None))
    else
      var before := db.plantations[id];
      if status == Verified then
        var verifier := VerifierOrNull(verifiedBy);
        if verifier.Some? && verifier.value !in db.users then Step(db, Err(ForeignKeyViolation))
        else
          var after := before.(status := status, verifiedAt := Some(db.clock), verifiedBy := verifier);
          Step(db.(plantations := db.plantations[id := after], clock := db.clock + 1), Ok(Some(after)))
      else
        var after := before.(status := status);
        Step(db.(plantations := db.plantations[id := after]), Ok(Some(after)))
  }

  /** `createCredit`: one new row; the status defaults to "available". */
  function InsertCredit(db: Db, input: NewCredit, id: Id): (s: Step<Result<Credit>>)
    requires id !in db.credits
    ensures s.result.Err? <==>
      || !IsInt32(input.amount) || input.plantationId !in db.plantations
      || input.ngoId !in db.users || input.currentOwnerId !in db.users
    ensures s.result.Err? ==>
      && s.db == db
      && s.result.error == if !IsInt32(input.amount) then OutOfRange else ForeignKeyViolation
    ensures s.result.Ok? ==>
      var c := s.result.value;
      && c == Credit(id, input.plantationId, input.ngoId, input.currentOwnerId, input.amount,
                     input.pricePerCredit, OrDefault(input.status, Available), db.clock)
      && s.db == db.(credits := db.credits[id := c], clock := db.clock + 1)
  {
    var row := Credit(id, input.plantationId, input.ngoId, input.currentOwnerId, input.amount,
                      input.pricePerCredit, OrDefault(input.status, Available), db.clock);
    if !IsInt32(input.amount) then Step(db, Err(OutOfRange))
    else if !CreditRefs(db.users.Keys, db.plantations.Keys, row) then Step(db, Err(ForeignKeyViolation))
    else Step(db.(credits := db.credits[id := row], clock := db.clock + 1), Ok(row))
  }

  /** `transferCredit`: the new owner and "sold", with no check of the
      current status; an absent id changes nothing. */
  function Reassign(db: Db, id: Id, newOwnerId: Id): (s: Step<Result<Option<Credit>>>)
    ensures s.result == Ok(None) <==> id !in db.credits
    ensures id !in db.credits ==> s == Step(db, Ok(None))
    ensures s.result.Err? <==> id in db.credits && newOwnerId !in db.users
    ensures s.result.Err? ==> s.db == db && s.result.error == ForeignKeyViolation
    ensures s.result.Ok? && s.result.value.Some? ==>
      var c := s.result.value.value;
      && id in db.credits
      && c == db.credits[id].(currentOwnerId := newOwnerId, status := Sold)
      && s.db == db.(credits := db.credits[id := c])
  {
    if id !in db.credits then Step(db, Ok(None))
    else if newOwnerId !in db.users then Step(db, Err(ForeignKeyViolation))
    else
      var after := db.credits[id].(currentOwnerId := newOwnerId, status := Sold);
      Step(db.(credits := db.credits[id := after]), Ok(Some(after)))
  }

  /** `createTransaction`: one new row; the status defaults to "confirmed"
      and the unique index refuses a hash already recorded. */
  function InsertTransaction(db: Db, input: NewTransaction, id: Id): (s: Step<Result<Transaction>>)
    requires id !in db.transactions
    ensures s.result.Err? <==>
      || !IsInt32(input.amount) || HashTaken(db.transactions, input.transactionHash)
      || (input.fromUserId.Some? && input.fromUserId.value !in db.users) || input.toUserId !in db.users
      || (input.creditId.Some? && input.creditId.value !in db.credits)
    ensures HashTaken(db.transactions, input.transactionHash) ==> s.result.Err?
    ensures s.result.Err? ==>
      && s.db == db
      && s.result.error == if !IsInt32(input.amount) then OutOfRange
                           else if HashTaken(db.transactions, input.transactionHash) then UniqueViolation
                           else ForeignKeyViolation
    ensures s.result.Ok? ==>
      var t := s.result.value;
      && t == Transaction(id, input.transactionHash, input.kind, input.fromUserId, input.toUserId,
                          input.creditId, input.amount, OrDefault(input.status, Confirmed), db.clock)
      && s.db == db.(transactions := db.transactions[id := t], clock := db.clock + 1)
  {
    var row := Transaction(id, input.transactionHash, input.kind, input.fromUserId, input.toUserId,
                           input.creditId, input.amount, OrDefault(input.status, Confirmed), db.clock);
    if !IsInt32(input.amount) then Step(db, Err(OutOfRange))
    else if HashTaken(db.transactions, input.transactionHash) then Step(db, Err(UniqueViolation))
    else if !TransactionRefs(db.users.Keys, db.credits.Keys, row) then Step(db, Err(ForeignKeyViolation))
    else Step(db.(transactions := db.transactions[id := row], clock := db.clock + 1), Ok(row))
  }

  // ---------------------------------------------------------------------
  // Every statement keeps the database consistent

  // Adding or replacing one row that meets its row-level constraints keeps
  // the table's constraints; the other tables only gain keys to refer to
  // and a later clock (Schema's *Grow lemmas).

  lemma PlantationsPut(plantations: map<Id, Plantation>, userIds: set<Id>, clock: nat, p: Plantation)
    requires PlantationsOk(plantations, userIds, clock) && PlantationRow(p.id, p, userIds, clock)
    requires p.id in plantations ==> p.createdAt == plantations[p.id].createdAt
    requires forall k :: k in plantations && k != p.id ==> plantations[k].createdAt != p.createdAt
    ensures PlantationsOk(plantations[p.id := p], userIds, clock)
  {
  }

  lemma CreditsPut(credits: map<Id, Credit>, userIds: set<Id>, plantationIds: set<Id>, clock: nat, c: Credit)
    requires CreditsOk(credits, userIds, plantationIds, clock) && CreditRow(c.id, c, userIds, plantationIds, clock)
    requires c.id in credits ==> c.createdAt == credits[c.id].createdAt
    requires forall k :: k in credits && k != c.id ==> credits[k].createdAt != c.createdAt
    ensures CreditsOk(credits[c.id := c], userIds, plantationIds, clock)
  {
  }

  lemma TransactionsAdd(transactions: map<Id, Transaction>, userIds: set<Id>, creditIds: set<Id>, clock: nat, t: Transaction)
    requires TransactionsOk(transactions, userIds, creditIds, clock) && TransactionRow(t.id, t, userIds, creditIds, clock)
    requires t.id !in transactions && !HashTaken(transactions, t.transactionHash)
    requires forall k :: k in transactions ==> transactions[k].createdAt != t.createdAt
    ensures TransactionsOk(transactions[t.id := t], userIds, creditIds, clock)
  {
  }

  lemma AddUser(db: Db, u: User)
    requires Consistent(db) && u.id !in db.users && !UsernameTaken(db.users, u.username)
    ensures Consistent(db.(users := db.users[u.id := u]))
  {
    var users := db.users[u.id := u];
    assert UsersOk(users);
    PlantationsOkGrow(db.plantations, db.users.Keys, db.clock, users.Keys, db.clock);
    CreditsOkGrow(db.credits, db.users.Keys, db.plantations.Keys, db.clock, users.Keys, db.plantations.Keys, db.clock);
    TransactionsOkGrow(db.transactions, db.users.Keys, db.credits.Keys, db.clock, users.Keys, db.credits.Keys, db.clock);
  }

  /** A plantation row stamped with the current clock, which then advances. */
  lemma AddPlantation(db: Db, p: Plantation)
    requires Consistent(db) && p.id !in db.plantations
    requires PlantationRow(p.id, p, db.users.Keys, db.clock + 1) && p.createdAt == db.clock
    ensures Consistent(db.(plantations := db.plantations[p.id := p], clock := db.clock + 1))
  {
    var plantations := db.plantations[p.id := p];
    PlantationsOkGrow(db.plantations, db.users.Keys, db.clock, db.users.Keys, db.clock + 1);
    PlantationsPut(db.plantations, db.users.Keys, db.clock + 1, p);
    CreditsOkGrow(db.credits, db.users.Keys, db.plantations.Keys, db.clock, db.users.Keys, plantations.Keys, db.clock + 1);
    TransactionsOkGrow(db.transactions, db.users.Keys, db.credits.Keys, db.clock, db.users.Keys, db.credits.Keys, db.clock + 1);
  }

  /** A plantation row replaced by one with the same creation stamp; the
      clock may advance past a new verification stamp. */
  lemma ReplacePlantation(db: Db, p: Plantation, clock: nat)
    requires Consistent(db) && p.id in db.plantations && db.clock <= clock
    requires PlantationRow(p.id, p, db.users.Keys, clock) && p.createdAt == db.plantations[p.id].createdAt
    ensures Consistent(db.(plantations := db.plantations[p.id := p], clock := clock))
  {
    var plantations := db.plantations[p.id := p];
    assert plantations.Keys == db.plantations.Keys;
    PlantationsOkGrow(db.plantations, db.users.Keys, db.clock, db.users.Keys, clock);
    PlantationsPut(db.plantations, db.users.Keys, clock, p);
    CreditsOkGrow(db.credits, db.users.Keys, db.plantations.Keys, db.clock, db.users.Keys, plantations.Keys, clock);
    TransactionsOkGrow(db.transactions, db.users.Keys, db.credits.Keys, db.clock, db.users.Keys, db.credits.Keys, clock);
  }

  lemma AddCredit(db: Db, c: Credit)
    requires Consistent(db) && c.id !in db.credits
    requires CreditRow(c.id, c, db.users.Keys, db.plantations.Keys, db.clock + 1) && c.createdAt == db.clock
    ensures Consistent(db.(credits := db.credits[c.id := c], clock := db.clock + 1))
  {
    var credits := db.credits[c.id := c];
    PlantationsOkGrow(db.plantations, db.users.Keys, db.clock, db.users.Keys, db.clock + 1);
    CreditsOkGrow(db.credits, db.users.Keys, db.plantations.Keys, db.clock, db.users.Keys, db.plantations.Keys, db.clock + 1);
    CreditsPut(db.credits, db.users.Keys, db.plantations.Keys, db.clock + 1, c);
    TransactionsOkGrow(db.transactions, db.users.Keys, db.credits.Keys, db.clock, db.users.Keys, credits.Keys, db.clock + 1);
  }

  lemma ReplaceCredit(db: Db, c: Credit)
    requires Consistent(db) && c.id in db.credits
    requires CreditRow(c.id, c, db.users.Keys, db.plantations.Keys, db.clock) && c.createdAt == db.credits[c.id].createdAt
    ensures Consistent(db.(credits := db.credits[c.id := c]))
  {
    var credits := db.credits[c.id := c];
    assert credits.Keys == db.credits.Keys;
    CreditsPut(db.credits, db.users.Keys, db.plantations.Keys, db.clock, c);
  }

  lemma AddTransaction(db: Db, t: Transaction)
    requires Consistent(db) && t.id !in db.transactions && !HashTaken(db.transactions, t.transactionHash)
    requires TransactionRow(t.id, t, db.users.Keys, db.credits.Keys, db.clock + 1) && t.createdAt == db.clock
    ensures Consistent(db.(transactions := db.transactions[t.id := t], clock := db.clock + 1))
  {
    PlantationsOkGrow(db.plantations, db.users.Keys, db.clock, db.users.Keys, db.clock + 1);
    CreditsOkGrow(db.credits, db.users.Keys, db.plantations.Keys, db.clock, db.users.Keys, db.plantations.Keys, db.clock + 1);
    TransactionsOkGrow(db.transactions, db.users.Keys, db.credits.Keys, db.clock, db.users.Keys, db.credits.Keys, db.clock + 1);
    TransactionsAdd(db.transactions, db.users.Keys, db.credits.Keys, db.clock + 1, t);
  }

  // Hence every statement keeps the database consistent.

  lemma InsertUserConsistent(db: Db, input: NewUser, id: Id)
    requires Consistent(db) && id !in db.users
    ensures Consistent(InsertUser(db, input, id).db)
  {
    var s := InsertUser(db, input, id);
    if s.result.Ok? {
      AddUser(db, s.result.value);
    }
  }

  lemma InsertPlantationConsistent(db: Db, input: NewPlantation, id: Id)
    requires Consistent(db) && id !in db.plantations
    ensures Consistent(InsertPlantation(db, input, id).db)
  {
    var s := InsertPlantation(db, input, id);
    if s.result.Ok? {
      AddPlantation(db, s.result.value);
    }
  }

  lemma SetPlantationStatusConsistent(db: Db, id: Id, status: string, verifiedBy: Option<Id>)
    requires Consistent(db)
    ensures Consistent(SetPlantationStatus(db, id, status, verifiedBy).db)
  {
    var s := SetPlantationStatus(db, id, status, verifiedBy);
    if s.result.Ok? && s.result.value.Some? {
      assert PlantationRow(id, db.plantations[id], db.users.Keys, db.clock);
      ReplacePlantation(db, s.result.value.value, s.db.clock);
    }
  }

  lemma InsertCreditConsistent(db: Db, input: NewCredit, id: Id)
    requires Consistent(db) && id !in db.credits
    ensures Consistent(InsertCredit(db, input, id).db)
  {
    var s := InsertCredit(db, input, id);
    if s.result.Ok? {
      AddCredit(db, s.result.value);
    }
  }

  lemma ReassignConsistent(db: Db, id: Id, newOwnerId: Id)
    requires Consistent(db)
    ensures Consistent(Reassign(db, id, newOwnerId).db)
  {
    var s := Reassign(db, id, newOwnerId);
    if s.result.Ok? && s.result.value.Some? {
      assert CreditRow(id, db.credits[id], db.users.Keys, db.plantations.Keys, db.clock);
      ReplaceCredit(db, s.result.value.value);
    }
  }

  lemma InsertTransactionConsistent(db: Db, input: NewTransaction, id: Id)
    requires Consistent(db) && id !in db.transactions
    ensures Consistent(InsertTransaction(db, input, id).db)
  {
    var s := InsertTransaction(db, input, id);
    if s.result.Ok? {
      AddTransaction(db, s.result.value);
    }
  }

  // ---------------------------------------------------------------------
  // Sample data

  const SampleNgo: User := User("ngo-001", "mangrove_ngo", "password123", "ngo", Some("Mangrove Conservation NGO"))
  const SampleBuyer: User := User("buy-001", "ecotech_buyer", "password123", "buyer", Some("EcoTech Solutions"))
  const SampleAdmin: User := User("admin-001", "admin", "admin123", "admin", Some("EcoLedger Admin"))

  /** The sample plantation is inserted as "verified" with a verifier but
      without a `verifiedAt`, which the seeding never sets. */
  function SamplePlantation(now: nat): Plantation
  {
    Plantation("plant-001", "ngo-001", 500, "1.3521", "103.8198",
               Some("Rhizophora species planted in coastal restoration area"), None,
               5, Verified, now, None, Some("admin-001"))
  }

  function SampleCredit(now: nat): Credit
  {
    Credit("credit-001", "plant-001", "ngo-001", "ngo-001", 5, Some("25.00"), Available, now)
  }

  function SampleMint(now: nat): Transaction
  {
    Transaction("tx-001", "0xA4F2E9...B8C3D1", Mint, None, "ngo-001", Some("credit-001"), 5, Confirmed, now)
  }

  /** The database the seeding writes into an empty one, its clock at `now`. */
  function SampleData(now: nat): Db
  {
    Db(map[][SampleNgo.id := SampleNgo][SampleBuyer.id := SampleBuyer][SampleAdmin.id := SampleAdmin],
       map[]["plant-001" := SamplePlantation(now)],
       map[]["credit-001" := SampleCredit(now + 1)],
       map[]["tx-001" := SampleMint(now + 2)],
       now + 3)
  }

  /** The sample rows satisfy every constraint of the schema. */
  lemma SampleDataConsistent(now: nat)
    ensures Consistent(SampleData(now))
  {
    SampleUsersOk(now);
    SampleRowsOk(now);
  }

  lemma SampleUsersOk(now: nat)
    ensures SampleData(now).users.Keys == {"ngo-001", "buy-001", "admin-001"}
    ensures UsersOk(SampleData(now).users)
  {
    var users := SampleData(now).users;
    assert "mangrove_ngo" != "ecotech_buyer" && "mangrove_ngo" != "admin" && "ecotech_buyer" != "admin";
  }

  lemma SampleRowsOk(now: nat)
    requires SampleData(now).users.Keys == {"ngo-001", "buy-001", "admin-001"}
    ensures var db := SampleData(now);
      && PlantationsOk(db.plantations, db.users.Keys, db.clock)
      && CreditsOk(db.credits, db.users.Keys, db.plantations.Keys, db.clock)
      && TransactionsOk(db.transactions, db.users.Keys, db.credits.Keys, db.clock)
  {
    var db := SampleData(now);
    assert PlantationRow("plant-001", SamplePlantation(now), db.users.Keys, db.clock);
    assert CreditRow("credit-001", SampleCredit(now + 1), db.users.Keys, {"plant-001"}, db.clock);
    assert TransactionRow("tx-001", SampleMint(now + 2), db.users.Keys, {"credit-001"}, db.clock);
  }

  // ---------------------------------------------------------------------
  // Queries

  /** Rows in descending order of their creation stamp. */
  ghost predicate NewestFirst<R>(rows: seq<R>, stamp: R -> nat)
  {
    forall i, j :: 0 <= i < j < |rows| ==> stamp(rows[i]) > stamp(rows[j])
  }

  ghost predicate DistinctStamps<R>(table: map<Id, R>, stamp: R -> nat)
  {
    forall a, b :: a in table && b in table && a != b ==> stamp(table[a]) != stamp(table[b])
  }

  /** A non-empty set of rows has a newest one. */
  lemma {:induction false} NewestExists<R>(table: map<Id, R>, stamp: R -> nat, ids: set<Id>)
    requires ids != {} && ids <= table.Keys
    ensures exists m :: m in ids && forall o :: o in ids ==> stamp(table[o]) <= stamp(table[m])
    decreases ids
  {
    var x :| x in ids;
    if ids != {x} {
      var rest := ids - {x};
      NewestExists(table, stamp, rest);
      var m :| m in rest && forall o :: o in rest ==> stamp(table[o]) <= stamp(table[m]);
      if stamp(table[m]) < stamp(table[x]) {
        assert forall o :: o in ids ==> stamp(table[o]) <= stamp(table[x]);
      } else {
        assert forall o :: o in ids ==> stamp(table[o]) <= stamp(table[m]);
      }
    } else {
      assert forall o :: o in ids ==> stamp(table[o]) <= stamp(table[x]);
    }
  }

  /** `select ... where <keep> order by created_at desc`: exactly the stored
      rows that satisfy `keep`, newest first. */
  method SelectNewestFirst<R(==)>(table: map<Id, R>, keep: R -> bool, stamp: R -> nat) returns (rows: seq<R>)
    requires DistinctStamps(table, stamp)
    ensures forall r :: r in rows <==> r in table.Values && keep(r)
    ensures NewestFirst(rows, stamp)
  {
    var left := set id | id in table && keep(table[id]);
    rows := [];
    while left != {}
      invariant left <= table.Keys
      invariant forall id :: id in left ==> keep(table[id])
      invariant forall r :: r in rows ==> r in table.Values && keep(r)
      invariant forall id :: id in table && keep(table[id]) && id !in left ==> table[id] in rows
      invariant NewestFirst(rows, stamp)
      invariant forall i, id :: 0 <= i < |rows| && id in left ==> stamp(rows[i]) > stamp(table[id])
      decreases |left|
    {
      NewestExists(table, stamp, left);
      var next :| next in left && forall o :: o in left ==> stamp(table[o]) <= stamp(table[next]);
      rows := rows + [table[next]];
      left := left - {next};
    }
  }

  // ---------------------------------------------------------------------
  // Fresh primary keys

  ghost function Longest(ids: set<Id>): (w: Id)
    ensures forall x :: x in ids ==> |x| <= |w|
    decreases ids
  {
    if ids == {} then "" else
    var x :| x in ids;
    var w := Longest(ids - {x});
    if |x| <= |w| then w else x
  }

  /** `randomUUID()`: some key the table does not hold yet. */
  method NewId(used: set<Id>) returns (id: Id)
    ensures id !in used
  {
    ghost var longer := Longest(used) + "-";
    assert longer !in used;
    id :| id !in used;
  }

  lemma FreshIdExists(used: set<Id>)
    ensures exists id :: id !in used
  {
    var longer := Longest(used) + "-";
    assert longer !in used;
  }

  // ---------------------------------------------------------------------
  // The store

  class LedgerStore {
    var users: map<Id, User>
    var plantations: map<Id, Plantation>
    var credits: map<Id, Credit>
    var transactions: map<Id, Transaction>
    var clock: nat

    /** The tables as a database value. */
    function State(): Db
      reads this
    {
      Db(users, plantations, credits, transactions, clock)
    }

    ghost predicate Valid()
      reads this
    {
      Consistent(State())
    }

    /** Connects to a database and runs the seeding on it. */
    constructor (existing: Db)
      requires Consistent(existing)
      ensures Valid()
      ensures existing.users != map[] ==> State() == existing
      ensures existing.users == map[] ==> State() == SampleData(existing.clock)
    {
      users, plantations, credits, transactions := existing.users, existing.plantations, existing.credits, existing.transactions;
      clock := existing.clock;
      new;
      InitializeSampleData();
    }

    /** `initializeSampleData`: seeds only a database without users. Such a
        database is empty (Schema.EmptyWithoutUsers), so none of the seeding
        inserts can clash with an existing row. */
    method InitializeSampleData()
      requires Valid()
      modifies this
      ensures Valid()
      ensures old(users) != map[] ==> State() == old(State())
      ensures old(users) == map[] ==> State() == SampleData(old(clock))
    {
      if |users| > 0 {
        return;
      }
      assert users == map[];
      EmptyWithoutUsers(State());
      Seed();
      SampleDataConsistent(old(clock));
    }

    /** The six seeding inserts, in order, into empty tables. */
    method Seed()
      requires users == map[] && plantations == map[] && credits == map[] && transactions == map[]
      modifies this
      ensures State() == SampleData(old(clock))
    {
      users := users[SampleNgo.id := SampleNgo];
      users := users[SampleBuyer.id := SampleBuyer];
      users := users[SampleAdmin.id := SampleAdmin];
      plantations := plantations["plant-001" := SamplePlantation(clock)];
      clock := clock + 1;
      credits := credits["credit-001" := SampleCredit(clock)];
      clock := clock + 1;
      transactions := transactions["tx-001" := SampleMint(clock)];
      clock := clock + 1;
    }

    // Users

    method GetUser(id: Id) returns (u: Option<User>)
      ensures u.Some? <==> id in users
      ensures u.Some? ==> u.value == users[id]
    {
      u := if id in users then Some(users[id]) else None;
    }

    /** The unique index makes the match, when there is one, the only one. */
    method GetUserByUsername(username: string) returns (u: Option<User>)
      requires Valid()
      ensures u.Some? <==> UsernameTaken(users, username)
      ensures u.Some? ==> u.value in users.Values && u.value.username == username
      ensures u.Some? ==> forall id :: id in users && users[id].username == username ==> users[id] == u.value
    {
      if UsernameTaken(users, username) {
        var id :| id in users && users[id].username == username;
        u := Some(users[id]);
      } else {
        u := None;
      }
    }

    method CreateUser(input: NewUser) returns (r: Result<User>)
      requires Valid()
      modifies this
      ensures Valid()
      ensures exists id :: id !in old(users) && InsertUser(old(State()), input, id) == Step(State(), r)
    {
      var id := NewId(users.Keys);
      if UsernameTaken(users, input.username) {
        r := Err(UniqueViolation);
      } else {
        var row := User(id, input.username, input.password, input.role, input.organizationName);
        users := users[id := row];
        r := Ok(row);
      }
      assert InsertUser(old(State()), input, id) == Step(State(), r);
      InsertUserConsistent(old(State()), input, id);
    }

    // Plantations

    method GetPlantation(id: Id) returns (p: Option<Plantation>)
      ensures p.Some? <==> id in plantations
      ensures p.Some? ==> p.value == plantations[id]
    {
      p := if id in plantations then Some(plantations[id]) else None;
    }

    method GetPlantationsByNgo(ngoId: Id) returns (rows: seq<Plantation>)
      requires Valid()
      ensures forall p :: p in rows <==> p in plantations.Values && p.ngoId == ngoId
      ensures forall i, j :: 0 <= i < j < |rows| ==> rows[i].createdAt > rows[j].createdAt
    {
      rows := SelectNewestFirst(plantations, (p: Plantation) => p.ngoId == ngoId, (p: Plantation) => p.createdAt);
    }

    method GetPendingPlantations() returns (rows: seq<Plantation>)
      requires Valid()
      ensures forall p :: p in rows <==> p in plantations.Values && p.status == Pending
      ensures forall i, j :: 0 <= i < j < |rows| ==> rows[i].createdAt > rows[j].createdAt
    {
      rows := SelectNewestFirst(plantations, (p: Plantation) => p.status == Pending, (p: Plantation) => p.createdAt);
    }

    method CreatePlantation(input: NewPlantation) returns (r: Result<Plantation>)
      requires Valid()
      modifies this
      ensures Valid()
      ensures exists id :: id !in old(plantations) && InsertPlantation(old(State()), input, id) == Step(State(), r)
    {
      var id := NewId(plantations.Keys);
      var creditsEarned := Utils.CalculateCredits(input.mangroveCount);
      if !IsInt32(input.mangroveCount) {
        r := Err(OutOfRange);
      } else if input.ngoId !in users {
        r := Err(ForeignKeyViolation);
      } else {
        var row := Plantation(id, input.ngoId, input.mangroveCount, input.latitude, input.longitude,
                              input.notes, input.imageUrl, creditsEarned, Pending, clock, None, None);
        plantations := plantations[id := row];
        clock := clock + 1;
        r := Ok(row);
      }
      assert InsertPlantation(old(State()), input, id) == Step(State(), r);
      InsertPlantationConsistent(old(State()), input, id);
    }

    /** Builds the update (the status, and for "verified" the stamp and the
        verifier) and applies it to the row with that id, if any. */
    method UpdatePlantationStatus(id: Id, status: string, verifiedBy: Option<Id>)
      returns (r: Result<Option<Plantation>>)
      requires Valid()
      modifies this
      ensures Valid()
      ensures Step(State(), r) == SetPlantationStatus(old(State()), id, status, verifiedBy)
    {
      var verifying := status == Verified;
      var verifier := VerifierOrNull(verifiedBy);
      if id !in plantations {
        r := Ok(None);
      } else if verifying && verifier.Some? && verifier.value !in users {
        r := Err(ForeignKeyViolation);
      } else {
        var row := plantations[id].(status := status);
        if verifying {
          row := row.(verifiedAt := Some(clock), verifiedBy := verifier);
          clock := clock + 1;
        }
        plantations := plantations[id := row];
        r := Ok(Some(row));
      }
      SetPlantationStatusConsistent(old(State()), id, status, verifiedBy);
    }

    // Credits

    method GetCredit(id: Id) returns (c: Option<Credit>)
      ensures c.Some? <==> id in credits
      ensures c.Some? ==> c.value == credits[id]
    {
      c := if id in credits then Some(credits[id]) else None;
    }

    method GetCreditsByOwner(ownerId: Id) returns (rows: seq<Credit>)
      requires Valid()
      ensures forall c :: c in rows <==> c in credits.Values && c.currentOwnerId == ownerId
      ensures forall i, j :: 0 <= i < j < |rows| ==> rows[i].createdAt > rows[j].createdAt
    {
      rows := SelectNewestFirst(credits, (c: Credit) => c.currentOwnerId == ownerId, (c: Credit) => c.createdAt);
    }

    method GetAvailableCredits() returns (rows: seq<Credit>)
      requires Valid()
      ensures forall c :: c in rows <==> c in credits.Values && c.status == Available
      ensures forall i, j :: 0 <= i < j < |rows| ==> rows[i].createdAt > rows[j].createdAt
    {
      rows := SelectNewestFirst(credits, (c: Credit) => c.status == Available, (c: Credit) => c.createdAt);
    }

    method CreateCredit(input: NewCredit) returns (r: Result<Credit>)
      requires Valid()
      modifies this
      ensures Valid()
      ensures exists id :: id !in old(credits) && InsertCredit(old(State()), input, id) == Step(State(), r)
    {
      var id := NewId(credits.Keys);
      var row := Credit(id, input.plantationId, input.ngoId, input.currentOwnerId, input.amount,
                        input.pricePerCredit, OrDefault(input.status, Available), clock);
      if !IsInt32(input.amount) {
        r := Err(OutOfRange);
      } else if !CreditRefs(users.Keys, plantations.Keys, row) {
        r := Err(ForeignKeyViolation);
      } else {
        credits := credits[id := row];
        clock := clock + 1;
        r := Ok(row);
      }
      assert InsertCredit(old(State()), input, id) == Step(State(), r);
      InsertCreditConsistent(old(State()), input, id);
    }

    method TransferCredit(creditId: Id, newOwnerId: Id) returns (r: Result<Option<Credit>>)
      requires Valid()
      modifies this
      ensures Valid()
      ensures Step(State(), r) == Reassign(old(State()), creditId, newOwnerId)
    {
      if creditId !in credits {
        r := Ok(None);
      } else if newOwnerId !in users {
        r := Err(ForeignKeyViolation);
      } else {
        var row := credits[creditId].(currentOwnerId := newOwnerId, status := Sold);
        credits := credits[creditId := row];
        r := Ok(Some(row));
      }
      ReassignConsistent(old(State()), creditId, newOwnerId);
    }

    // Transactions

    method GetTransactions() returns (rows: seq<Transaction>)
      requires Valid()
      ensures forall t :: t in rows <==> t in transactions.Values
      ensures forall i, j :: 0 <= i < j < |rows| ==> rows[i].createdAt > rows[j].createdAt
    {
      rows := SelectNewestFirst(transactions, (t: Transaction) => true, (t: Transaction) => t.createdAt);
    }

    /** Matches the sender only: a transaction the user merely received, such
        as a mint (which has no sender), is not among them. */
    method GetTransactionsByUser(userId: Id) returns (rows: seq<Transaction>)
      requires Valid()
      ensures forall t :: t in rows <==> t in transactions.Values && t.fromUserId == Some(userId)
      ensures forall i, j :: 0 <= i < j < |rows| ==> rows[i].createdAt > rows[j].createdAt
    {
      rows := SelectNewestFirst(transactions, (t: Transaction) => t.fromUserId == Some(userId),
                                (t: Transaction) => t.createdAt);
    }

    method CreateTransaction(input: NewTransaction) returns (r: Result<Transaction>)
      requires Valid()
      modifies this
      ensures Valid()
      ensures exists id :: id !in old(transactions) && InsertTransaction(old(State()), input, id) == Step(State(), r)
    {
      var id := NewId(transactions.Keys);
      var row := Transaction(id, input.transactionHash, input.kind, input.fromUserId, input.toUserId,
                             input.creditId, input.amount, OrDefault(input.status, Confirmed), clock);
      if !IsInt32(input.amount) {
        r := Err(OutOfRange);
      } else if HashTaken(transactions, input.transactionHash) {
        r := Err(UniqueViolation);
      } else if !TransactionRefs(users.Keys, credits.Keys, row) {
        r := Err(ForeignKeyViolation);
      } else {
        transactions := transactions[id := row];
        clock := clock + 1;
        r := Ok(row);
      }
      assert InsertTransaction(old(State()), input, id) == Step(State(), r);
      InsertTransactionConsistent(old(State()), input, id);
    }
  }
}

=== FILE: utils.dfy ===
/** The client's credit rule and its display hash generator. */
module Utils {

  /** `calculateCredits`: one credit per full hundred mangroves, rounded down
      (`Math.floor`; for a positive divisor Dafny's `/` rounds down too). */
  function CalculateCredits(mangroveCount: int): (credits: int)
    ensures 100 * credits <= mangroveCount < 100 * (credits + 1)
  {
    mangroveCount / 100
  }

  /** The two bounds of CalculateCredits pin its value down: no other count of
      credits lies within them. */
  lemma CreditsDetermined(mangroveCount: int, credits: int)
    requires 100 * credits <= mangroveCount < 100 * (credits + 1)
    ensures CalculateCredits(mangroveCount) == credits
  {
  }

  /** More mangroves never earn fewer credits. */
  lemma CalculateCreditsMonotone(a: int, b: int)
    requires a <= b
    ensures CalculateCredits(a) <= CalculateCredits(b)
  {
  }

  /** Counts from 0 to 99 earn nothing; 100 earns one credit and 250 earns two. */
  lemma CalculateCreditsExamples(n: int)
    requires 0 <= n < 100
    ensures CalculateCredits(n) == 0
    ensures CalculateCredits(100) == 1 && CalculateCredits(250) == 2 && CalculateCredits(500) == 5
  {
    CreditsDetermined(n, 0);
    CreditsDetermined(100, 1);
    CreditsDetermined(250, 2);
    CreditsDetermined(500, 5);
  }

  /** The digit alphabet of both hash generators. */
  const HexDigits: string := "0123456789ABCDEF"

  /** The fixed shape of a display hash: "0x", six hex digits, "...", six hex digits. */
  predicate HashShaped(h: string)
  {
    && |h| == 17
    && h[..2] == "0x"
    && h[8..11] == "..."
    && (forall i :: 2 <= i < 8 ==> h[i] in HexDigits)
    && (forall i :: 11 <= i < 17 ==> h[i] in HexDigits)
  }

  /** `generateTransactionHash`: `picks` holds the twelve values of
      `Math.floor(Math.random() * 16)` in the order the two loops draw them. */
  method GenerateTransactionHash(picks: seq<nat>) returns (hash: string)
    requires |picks| == 12
    requires forall i :: 0 <= i < |picks| ==> picks[i] < |HexDigits|
    ensures HashShaped(hash)
    ensures forall k :: 0 <= k < 6 ==> hash[2 + k] == HexDigits[picks[k]]
    ensures forall k :: 6 <= k < 12 ==> hash[5 + k] == HexDigits[picks[k]]
  {
    hash := "0x";
    for i := 0 to 6
      invariant |hash| == 2 + i
      invariant hash[..2] == "0x"
      invariant forall k :: 0 <= k < i ==> hash[2 + k] == HexDigits[picks[k]]
    {
      hash := hash + [HexDigits[picks[i]]];
    }
    hash := hash + "...";
    for i := 0 to 6
      invariant |hash| == 11 + i
      invariant hash[..2] == "0x" && hash[8..11] == "..."
      invariant forall k :: 0 <= k < 6 ==> hash[2 + k] == HexDigits[picks[k]]
      invariant forall k :: 6 <= k < 6 + i ==> hash[5 + k] == HexDigits[picks[k]]
    {
      hash := hash + [HexDigits[picks[6 + i]]];
    }
    forall i | 2 <= i < 8 ensures hash[i] in HexDigits {
      assert hash[2 + (i - 2)] == HexDigits[picks[i - 2]];
    }
    forall i | 11 <= i < 17 ensures hash[i] in HexDigits {
      assert hash[5 + (i - 5)] == HexDigits[picks[i - 5]];
    }
  }
}

=== FILE: workflow.dfy ===
/** What the verify, reject and purchase handlers guarantee about the ledger:
    their outcome in every case, the invariant linking plantations, credits
    and ledger entries that they keep, and their effect on the dashboard
    stats. */
module Workflow {
  import opened Schema
  import Utils
  import Storage
  import opened Routes

  // ---------------------------------------------------------------------
  // The ledger invariant

  /** A plantation carries one of the three workflow statuses and the credit
      count the credit rule gives its mangroves. */
  ghost predicate PlantationLedgered(p: Plantation)
  {
    && (p.status == Pending || p.status == Verified || p.status == Rejected)
    && p.creditsEarned == Utils.CalculateCredits(p.mangroveCount)
  }

  /** A credit was minted from an existing plantation, for that plantation's
      credit count and at the fixed price; while it is for sale its NGO owns it. */
  ghost predicate CreditLedgered(plantations: map<Id, Plantation>, c: Credit)
  {
    && c.plantationId in plantations
    && c.ngoId == plantations[c.plantationId].ngoId
    && c.amount == plantations[c.plantationId].creditsEarned
    && c.pricePerCredit == Some("25.00")
    && (c.status == Available || c.status == Sold)
    && (c.status == Available ==> c.currentOwnerId == c.ngoId)
  }

  /** A ledger entry is confirmed and records, for a whole existing credit,
      either its mint (from nobody to the NGO) or its sale (from the NGO to
      the credit's present owner, the credit being sold). */
  ghost predicate EntryLedgered(credits: map<Id, Credit>, t: Transaction)
  {
    && t.status == Confirmed
    && t.creditId.Some? && t.creditId.value in credits
    && t.amount == credits[t.creditId.value].amount
    && var c := credits[t.creditId.value];
       || (t.kind == Mint && t.fromUserId == None && t.toUserId == c.ngoId)
       || (t.kind == Transfer && c.status == Sold && t.fromUserId == Some(c.ngoId) && t.toUserId == c.currentOwnerId)
  }

  /** Two ledger entries of the same kind for the same credit. */
  predicate SameEntry(a: Transaction, b: Transaction)
  {
    a.creditId == b.creditId && a.kind == b.kind
  }

  /** The workflow invariant: every row is ledgered, and each credit has at
      most one mint and at most one transfer. */
  ghost predicate Ledgered(db: Db)
  {
    && (forall k :: k in db.plantations ==> PlantationLedgered(db.plantations[k]))
    && (forall k :: k in db.credits ==> CreditLedgered(db.plantations, db.credits[k]))
    && (forall k :: k in db.transactions ==> EntryLedgered(db.credits, db.transactions[k]))
    && (forall a, b :: a in db.transactions && b in db.transactions && a != b ==>
          !SameEntry(db.transactions[a], db.transactions[b]))
  }

  /** No ledger entry mentions a credit id the credits table does not hold. */
  lemma NoEntryFor(db: Db, creditId: Id)
    requires Ledgered(db) && creditId !in db.credits
    ensures forall k :: k in db.transactions ==> db.transactions[k].creditId != Some(creditId)
  {
    forall k | k in db.transactions ensures db.transactions[k].creditId != Some(creditId) {
      assert EntryLedgered(db.credits, db.transactions[k]);
    }
  }

  // One statement at a time: replacing a plantation's status, adding a
  // minted credit, selling a credit, and adding a ledger entry keep the
  // invariant (the clock plays no part in it).

  lemma StatusStep(db: Db, d: Db, id: Id, p: Plantation)
    requires Ledgered(db) && id in db.plantations
    requires p.ngoId == db.plantations[id].ngoId && p.creditsEarned == db.plantations[id].creditsEarned
    requires PlantationLedgered(p)
    requires d.plantations == db.plantations[id := p] && d.credits == db.credits && d.transactions == db.transactions
    ensures Ledgered(d)
  {
    forall k | k in d.credits ensures CreditLedgered(d.plantations, d.credits[k]) {
      assert CreditLedgered(db.plantations, db.credits[k]);
    }
  }

  lemma CreditStep(db: Db, d: Db, c: Credit)
    requires Ledgered(db) && c.id !in db.credits && CreditLedgered(db.plantations, c)
    requires d.plantations == db.plantations && d.credits == db.credits[c.id := c] && d.transactions == db.transactions
    ensures Ledgered(d)
  {
    forall k | k in d.transactions ensures EntryLedgered(d.credits, d.transactions[k]) {
      assert EntryLedgered(db.credits, db.transactions[k]);
    }
  }

  lemma SaleStep(db: Db, d: Db, id: Id, buyerId: Id)
    requires Ledgered(db) && id in db.credits && db.credits[id].status == Available
    requires d.plantations == db.plantations && d.transactions == db.transactions
    requires d.credits == db.credits[id := db.credits[id].(currentOwnerId := buyerId, status := Sold)]
    ensures Ledgered(d)
  {
    forall k | k in d.credits ensures CreditLedgered(d.plantations, d.credits[k]) {
      assert CreditLedgered(db.plantations, db.credits[k]);
    }
    forall k | k in d.transactions ensures EntryLedgered(d.credits, d.transactions[k]) {
      assert EntryLedgered(db.credits, db.transactions[k]);
    }
  }

  lemma EntryStep(db: Db, d: Db, t: Transaction)
    requires Ledgered(db) && t.id !in db.transactions && EntryLedgered(db.credits, t)
    requires forall k :: k in db.transactions ==> !SameEntry(db.transactions[k], t)
    requires d.plantations == db.plantations && d.credits == db.credits && d.transactions == db.transactions[t.id := t]
    ensures Ledgered(d)
  {
  }

  // ---------------------------------------------------------------------
  // The handlers keep the invariant

  /** `POST /api/plantations` adds a pending plantation with the rule's
      credit count, whatever status its body names. */
  lemma CreatePlantationLedgered(db: Db, input: NewPlantation, id: Id)
    requires Ledgered(db) && id !in db.plantations
    ensures Ledgered(Storage.InsertPlantation(db, input, id).db)
  {
    var s := Storage.InsertPlantation(db, input, id);
    if s.result.Ok? {
      forall k | k in s.db.credits ensures CreditLedgered(s.db.plantations, s.db.credits[k]) {
        assert CreditLedgered(db.plantations, db.credits[k]);
      }
    }
  }

  lemma VerifyLedgered(db: Db, id: Id, verifiedBy: Option<Id>, hash: string, creditId: Id, txId: Id)
    requires Consistent(db) && Ledgered(db) && creditId !in db.credits && txId !in db.transactions
    ensures Ledgered(VerifySpec(db, id, verifiedBy, hash, creditId, txId).db)
  {
    if id in db.plantations {
      assert PlantationRow(id, db.plantations[id], db.users.Keys, db.clock);
      MintLedgered(db, id, verifiedBy, hash, creditId, txId);
    }
  }

  /** The three writes of a verify, one at a time; the database's constraints
      enter only through the verified plantation's own id. */
  lemma MintLedgered(db: Db, id: Id, verifiedBy: Option<Id>, hash: string, creditId: Id, txId: Id)
    requires Ledgered(db) && creditId !in db.credits && txId !in db.transactions
    requires id in db.plantations && db.plantations[id].id == id
    ensures Ledgered(VerifySpec(db, id, verifiedBy, hash, creditId, txId).db)
  {
    var s1 := Storage.SetPlantationStatus(db, id, Verified, verifiedBy);
    if s1.result.Ok? && s1.result.value.Some? {
      var p := s1.result.value.value;
      assert PlantationLedgered(db.plantations[id]);
      StatusStep(db, s1.db, id, p);
      var s2 := Storage.InsertCredit(s1.db, MintCredit(p), creditId);
      if s2.result.Ok? {
        var c := s2.result.value;
        CreditStep(s1.db, s2.db, c);
        NoEntryFor(s1.db, creditId);
        var s3 := Storage.InsertTransaction(s2.db, MintEntry(p, c, hash), txId);
        if s3.result.Ok? {
          EntryStep(s2.db, s3.db, s3.result.value);
        }
      }
    }
  }

  lemma RejectLedgered(db: Db, id: Id)
    requires Ledgered(db)
    ensures Ledgered(RejectSpec(db, id).db)
  {
    var s := Storage.SetPlantationStatus(db, id, Rejected, None);
    if s.result.Ok? && s.result.value.Some? {
      assert PlantationLedgered(db.plantations[id]);
      StatusStep(db, s.db, id, s.result.value.value);
    }
  }

  lemma PurchaseLedgered(db: Db, creditId: Id, buyerId: Id, hash: string, txId: Id)
    requires Consistent(db) && Ledgered(db) && txId !in db.transactions
    ensures Ledgered(PurchaseSpec(db, creditId, buyerId, hash, txId).db)
  {
    if creditId in db.credits && db.credits[creditId].status == Available {
      assert CreditRow(creditId, db.credits[creditId], db.users.Keys, db.plantations.Keys, db.clock);
      SaleLedgered(db, creditId, buyerId, hash, txId);
    }
  }

  /** An available credit has no transfer entry yet. */
  lemma NoTransferYet(db: Db, creditId: Id)
    requires Ledgered(db) && creditId in db.credits && db.credits[creditId].status == Available
    ensures forall k :: k in db.transactions ==>
      !(db.transactions[k].creditId == Some(creditId) && db.transactions[k].kind == Transfer)
  {
    forall k | k in db.transactions
      ensures !(db.transactions[k].creditId == Some(creditId) && db.transactions[k].kind == Transfer)
    {
      assert EntryLedgered(db.credits, db.transactions[k]);
    }
  }

  /** The two writes of a purchase of an available credit, one at a time. */
  lemma SaleLedgered(db: Db, creditId: Id, buyerId: Id, hash: string, txId: Id)
    requires Ledgered(db) && txId !in db.transactions
    requires creditId in db.credits && db.credits[creditId].status == Available && db.credits[creditId].id == creditId
    ensures Ledgered(PurchaseSpec(db, creditId, buyerId, hash, txId).db)
  {
    var c := db.credits[creditId];
    var s1 := Storage.Reassign(db, creditId, buyerId);
    if s1.result.Ok? {
      SaleStep(db, s1.db, creditId, buyerId);
      var s2 := Storage.InsertTransaction(s1.db, TransferEntry(c, buyerId, hash), txId);
      if s2.result.Ok? {
        assert CreditLedgered(db.plantations, c);
        NoTransferYet(db, creditId);
        EntryStep(s1.db, s2.db, s2.result.value);
      }
    }
  }

  /** The seeded plantation, credit and mint agree: 500 mangroves earn 5
      credits, and both the credit and its mint are for 5. */
  lemma SampleDataLedgered(now: nat)
    ensures Ledgered(Storage.SampleData(now))
  {
    var db := Storage.SampleData(now);
    assert Utils.CalculateCredits(500) == 5;
    assert PlantationLedgered(db.plantations["plant-001"]);
    assert CreditLedgered(db.plantations, db.credits["credit-001"]);
    assert EntryLedgered(db.credits, db.transactions["tx-001"]);
  }

  // ---------------------------------------------------------------------
  // Outcomes

  /** Verify on an unknown plantation is not found and writes nothing; a
      verifier who is not a user makes the first write fail, so nothing is
      written either. */
  lemma VerifyRefused(db: Db, id: Id, verifiedBy: Option<Id>, hash: string, creditId: Id, txId: Id)
    requires creditId !in db.credits && txId !in db.transactions
    requires id !in db.plantations
      || (Storage.VerifierOrNull(verifiedBy).Some? && Storage.VerifierOrNull(verifiedBy).value !in db.users)
    ensures VerifySpec(db, id, verifiedBy, hash, creditId, txId).db == db
    ensures VerifySpec(db, id, verifiedBy, hash, creditId, txId).result
            == if id !in db.plantations then NotFound else Failed(ForeignKeyViolation)
  {
  }

  /** The plantation as a verify leaves it: the row the store's status
      update returns (`VerifiedRowIsStatusUpdate`). */
  function VerifiedRow(db: Db, id: Id, verifiedBy: Option<Id>): Plantation
    requires id in db.plantations
  {
    db.plantations[id].(status := Verified, verifiedAt := Some(db.clock), verifiedBy := Storage.VerifierOrNull(verifiedBy))
  }

  /** The status update of a verify, when the verifier exists, writes and
      returns `VerifiedRow` and advances the clock. */
  lemma VerifiedRowIsStatusUpdate(db: Db, id: Id, verifiedBy: Option<Id>)
    requires id in db.plantations
    requires Storage.VerifierOrNull(verifiedBy).Some? ==> Storage.VerifierOrNull(verifiedBy).value in db.users
    ensures Storage.SetPlantationStatus(db, id, Verified, verifiedBy)
         == Storage.Step(db.(plantations := db.plantations[id := VerifiedRow(db, id, verifiedBy)], clock := db.clock + 1),
                         Storage.Ok(Some(VerifiedRow(db, id, verifiedBy))))
  {
  }

  /** The credit a verify of plantation `p` mints, stamped `clock`: the row
      the store's insert of `MintCredit(p)` writes (`MintCreditSucceeds`). */
  function MintedCredit(id: Id, p: Plantation, creditId: Id, clock: nat): Credit
  {
    Credit(creditId, id, p.ngoId, p.ngoId, p.creditsEarned, Some("25.00"), Available, clock)
  }

  /** The mint entry of that credit, stamped `clock`: the row the store's
      insert of `MintEntry` writes (`MintEntryOutcome`). */
  function MintRow(p: Plantation, creditId: Id, hash: string, txId: Id, clock: nat): Transaction
  {
    Transaction(txId, hash, Mint, None, p.ngoId, Some(creditId), p.creditsEarned, Confirmed, clock)
  }

  /** The database once a verify has stamped the plantation and written its
      credit, before the mint entry. */
  function CreditWritten(db: Db, id: Id, verifiedBy: Option<Id>, creditId: Id): Db
    requires id in db.plantations
  {
    var p := VerifiedRow(db, id, verifiedBy);
    db.(plantations := db.plantations[id := p],
        credits := db.credits[creditId := MintedCredit(id, p, creditId, db.clock + 1)],
        clock := db.clock + 2)
  }

  /** A verify that gets past the status update mints: the plantation is
      stamped verified, one available credit for its stored credit count is
      owned by its NGO, and one confirmed mint entry from nobody to the NGO
      records it. */
  lemma VerifyMints(db: Db, id: Id, verifiedBy: Option<Id>, hash: string, creditId: Id, txId: Id)
    requires Consistent(db) && creditId !in db.credits && txId !in db.transactions
    requires id in db.plantations
    requires Storage.VerifierOrNull(verifiedBy).Some? ==> Storage.VerifierOrNull(verifiedBy).value in db.users
    requires !HashTaken(db.transactions, hash)
    ensures var p := VerifiedRow(db, id, verifiedBy);
      var c := MintedCredit(id, p, creditId, db.clock + 1);
      var t := MintRow(p, creditId, hash, txId, db.clock + 2);
      var d := CreditWritten(db, id, verifiedBy, creditId);
      VerifySpec(db, id, verifiedBy, hash, creditId, txId)
        == Storage.Step(d.(transactions := d.transactions[txId := t], clock := d.clock + 1), Ok(Minted(p, c, t)))
  {
    assert PlantationRow(id, db.plantations[id], db.users.Keys, db.clock);
    VerifyUpToEntry(db, id, verifiedBy, hash, creditId, txId);
    MintEntryOutcome(CreditWritten(db, id, verifiedBy, creditId), VerifiedRow(db, id, verifiedBy),
                     MintedCredit(id, VerifiedRow(db, id, verifiedBy), creditId, db.clock + 1), hash, txId);
  }

  /** Only a hash already on the ledger stops the mint entry, and then the
      verified plantation and the credit stay written. */
  lemma VerifyHashClash(db: Db, id: Id, verifiedBy: Option<Id>, hash: string, creditId: Id, txId: Id)
    requires Consistent(db) && creditId !in db.credits && txId !in db.transactions
    requires id in db.plantations
    requires Storage.VerifierOrNull(verifiedBy).Some? ==> Storage.VerifierOrNull(verifiedBy).value in db.users
    requires HashTaken(db.transactions, hash)
    ensures VerifySpec(db, id, verifiedBy, hash, creditId, txId)
         == Storage.Step(CreditWritten(db, id, verifiedBy, creditId), Failed(UniqueViolation))
  {
    assert PlantationRow(id, db.plantations[id], db.users.Keys, db.clock);
    VerifyUpToEntry(db, id, verifiedBy, hash, creditId, txId);
    MintEntryOutcome(CreditWritten(db, id, verifiedBy, creditId), VerifiedRow(db, id, verifiedBy),
                     MintedCredit(id, VerifiedRow(db, id, verifiedBy), creditId, db.clock + 1), hash, txId);
  }

  /** The status update and the credit insert of a verify go through, and
      the outcome is the mint entry's. */
  lemma VerifyUpToEntry(db: Db, id: Id, verifiedBy: Option<Id>, hash: string, creditId: Id, txId: Id)
    requires creditId !in db.credits && txId !in db.transactions
    requires id in db.plantations && PlantationRow(id, db.plantations[id], db.users.Keys, db.clock)
    requires Storage.VerifierOrNull(verifiedBy).Some? ==> Storage.VerifierOrNull(verifiedBy).value in db.users
    ensures var p := VerifiedRow(db, id, verifiedBy);
      var d := CreditWritten(db, id, verifiedBy, creditId);
      var c := MintedCredit(id, p, creditId, db.clock + 1);
      && txId !in d.transactions && d.transactions == db.transactions && d.clock == db.clock + 2
      && IsInt32(p.creditsEarned) && p.ngoId in d.users && c.id in d.credits
      && var s3 := Storage.InsertTransaction(d, MintEntry(p, c, hash), txId);
         VerifySpec(db, id, verifiedBy, hash, creditId, txId)
           == if s3.result.Err? then Storage.Step(s3.db, Failed(s3.result.error))
              else Storage.Step(s3.db, Ok(Minted(p, c, s3.result.value)))
  {
    var p := VerifiedRow(db, id, verifiedBy);
    var d1 := db.(plantations := db.plantations[id := p], clock := db.clock + 1);
    VerifiedRowIsStatusUpdate(db, id, verifiedBy);
    MintCreditSucceeds(db, d1, id, p, creditId);
    var c := MintedCredit(id, p, creditId, db.clock + 1);
    VerifyChain(db, id, verifiedBy, hash, creditId, txId, d1, p, CreditWritten(db, id, verifiedBy, creditId), c);
  }

  /** Under the database's constraints the credit insert of a verify cannot
      be refused: the plantation and its NGO exist and the count fits. */
  lemma MintCreditSucceeds(db: Db, d1: Db, id: Id, p: Plantation, creditId: Id)
    requires id in db.plantations && PlantationRow(id, db.plantations[id], db.users.Keys, db.clock)
    requires p.id == id && p.ngoId == db.plantations[id].ngoId && p.creditsEarned == db.plantations[id].creditsEarned
    requires d1.plantations == db.plantations[id := p] && d1.users == db.users && d1.credits == db.credits
    requires creditId !in db.credits
    ensures Storage.InsertCredit(d1, MintCredit(p), creditId)
         == Storage.Step(d1.(credits := d1.credits[creditId := MintedCredit(id, p, creditId, d1.clock)], clock := d1.clock + 1),
                         Storage.Ok(MintedCredit(id, p, creditId, d1.clock)))
  {
  }

  /** The mint entry of a freshly written credit is refused only for a hash
      already on the ledger. */
  lemma MintEntryOutcome(d2: Db, p: Plantation, c: Credit, hash: string, txId: Id)
    requires txId !in d2.transactions
    requires IsInt32(p.creditsEarned) && p.ngoId in d2.users && c.id in d2.credits
    ensures var s3 := Storage.InsertTransaction(d2, MintEntry(p, c, hash), txId);
      && (s3.result.Ok? <==> !HashTaken(d2.transactions, hash))
      && (s3.result.Ok? ==>
            s3 == Storage.Step(d2.(transactions := d2.transactions[txId := MintRow(p, c.id, hash, txId, d2.clock)],
                                   clock := d2.clock + 1),
                               Storage.Ok(MintRow(p, c.id, hash, txId, d2.clock))))
      && (s3.result.Err? ==> s3 == Storage.Step(d2, Storage.Err(UniqueViolation)))
  {
  }

  /** Verify, once the status update and the credit insert have gone
      through, ends as the mint entry's insert does. */
  lemma VerifyChain(db: Db, id: Id, verifiedBy: Option<Id>, hash: string, creditId: Id, txId: Id,
                    d1: Db, p: Plantation, d2: Db, c: Credit)
    requires creditId !in db.credits && txId !in db.transactions && txId !in d2.transactions
    requires Storage.SetPlantationStatus(db, id, Verified, verifiedBy) == Storage.Step(d1, Storage.Ok(Some(p)))
    requires creditId !in d1.credits
    requires Storage.InsertCredit(d1, MintCredit(p), creditId) == Storage.Step(d2, Storage.Ok(c))
    ensures var s3 := Storage.InsertTransaction(d2, MintEntry(p, c, hash), txId);
      VerifySpec(db, id, verifiedBy, hash, creditId, txId)
        == if s3.result.Err? then Storage.Step(s3.db, Failed(s3.result.error))
           else Storage.Step(s3.db, Ok(Minted(p, c, s3.result.value)))
  {
  }

  /** Verify does not look at the status: an already verified or rejected
      plantation is verified again and mints one more credit and one more
      mint entry. */
  lemma ReverifyMintsAgain(db: Db, id: Id, verifiedBy: Option<Id>, hash: string, creditId: Id, txId: Id)
    requires Consistent(db) && creditId !in db.credits && txId !in db.transactions
    requires id in db.plantations && db.plantations[id].status != Pending
    requires Storage.VerifierOrNull(verifiedBy).Some? ==> Storage.VerifierOrNull(verifiedBy).value in db.users
    requires !HashTaken(db.transactions, hash)
    ensures var s := VerifySpec(db, id, verifiedBy, hash, creditId, txId);
      && s.result.Ok?
      && |s.db.credits| == |db.credits| + 1
      && |s.db.transactions| == |db.transactions| + 1
  {
    VerifyMints(db, id, verifiedBy, hash, creditId, txId);
  }

  /** Reject changes the plantation's status and nothing else: an earlier
      verification stamp stays, and credits minted by an earlier verify stay
      on sale. */
  lemma RejectKeepsCredits(db: Db, id: Id)
    ensures var s := RejectSpec(db, id);
      && (s.result == NotFound <==> id !in db.plantations)
      && (s.result == NotFound ==> s.db == db)
      && (s.result != NotFound ==>
            && s.result == Ok(db.plantations[id].(status := Rejected))
            && s.db == db.(plantations := db.plantations[id := db.plantations[id].(status := Rejected)]))
  {
  }

  /** Purchase of an unknown credit is not found, of a credit that is not for
      sale is not available, and neither writes anything. */
  lemma PurchaseRefused(db: Db, creditId: Id, buyerId: Id, hash: string, txId: Id)
    requires txId !in db.transactions
    requires creditId !in db.credits || db.credits[creditId].status != Available
    ensures PurchaseSpec(db, creditId, buyerId, hash, txId).db == db
    ensures PurchaseSpec(db, creditId, buyerId, hash, txId).result
            == if creditId !in db.credits then NotFound else NotAvailable
  {
  }

  /** A purchase of a credit for sale, by a buyer who is a user, hands the
      credit to the buyer as sold and records one confirmed transfer of the
      whole credit from its owner before the sale to the buyer. */
  lemma PurchaseTransfers(db: Db, creditId: Id, buyerId: Id, hash: string, txId: Id)
    requires Consistent(db) && txId !in db.transactions
    requires creditId in db.credits && db.credits[creditId].status == Available && buyerId in db.users
    ensures var s := PurchaseSpec(db, creditId, buyerId, hash, txId);
      var c := db.credits[creditId];
      var sold := c.(currentOwnerId := buyerId, status := Sold);
      var t := Transaction(txId, hash, Transfer, Some(c.currentOwnerId), buyerId, Some(creditId), c.amount, Confirmed, db.clock);
      && (s.result.Ok? <==> !HashTaken(db.transactions, hash))
      && (s.result.Ok? ==>
            && s.result.value == Sale(Some(sold), t)
            && s.db == db.(credits := db.credits[creditId := sold], transactions := db.transactions[txId := t],
                           clock := db.clock + 1))
      && (!s.result.Ok? ==> s.result == Failed(UniqueViolation) && s.db == db.(credits := db.credits[creditId := sold]))
  {
    var c := db.credits[creditId];
    assert CreditRow(creditId, c, db.users.Keys, db.plantations.Keys, db.clock);
    var s1 := Storage.Reassign(db, creditId, buyerId);
    assert s1.db.credits.Keys == db.credits.Keys;
  }

  /** A credit is sold at most once: once a purchase has gone through, every
      later purchase of it is refused as not available. */
  lemma NoSecondSale(db: Db, creditId: Id, buyerId: Id, hash: string, txId: Id,
                     laterBuyer: Id, laterHash: string, laterTxId: Id)
    requires txId !in db.transactions
    requires PurchaseSpec(db, creditId, buyerId, hash, txId).result.Ok?
    requires laterTxId !in PurchaseSpec(db, creditId, buyerId, hash, txId).db.transactions
    ensures var d := PurchaseSpec(db, creditId, buyerId, hash, txId).db;
      PurchaseSpec(d, creditId, laterBuyer, laterHash, laterTxId) == Storage.Step(d, NotAvailable)
  {
  }

  /** Under the invariant a credit has at most one transfer, and a credit
      still for sale has none. */
  lemma AtMostOneTransfer(db: Db, a: Id, b: Id)
    requires Ledgered(db) && a in db.transactions && b in db.transactions
    requires db.transactions[a].kind == Transfer && db.transactions[b].kind == Transfer
    requires db.transactions[a].creditId == db.transactions[b].creditId
    ensures a == b
    ensures db.credits[db.transactions[a].creditId.value].status == Sold
  {
    assert EntryLedgered(db.credits, db.transactions[a]);
  }

  // ---------------------------------------------------------------------
  // The handlers' effect on the stats

  /** A set sum depends only on the amounts of its own rows. */
  lemma {:induction false} AmountOverFrame(credits: map<Id, Credit>, credits': map<Id, Credit>, ids: set<Id>)
    requires ids <= credits.Keys && ids <= credits'.Keys
    requires forall k :: k in ids ==> credits[k].amount == credits'[k].amount
    ensures AmountOver(credits, ids) == AmountOver(credits', ids)
    decreases ids
  {
    if ids != {} {
      var k :| k in ids;
      AmountOverRemove(credits, ids, k);
      AmountOverRemove(credits', ids, k);
      AmountOverFrame(credits, credits', ids - {k});
    }
  }

  /** Writing one new available credit and one new ledger entry puts the
      credit's amount on sale and counts the entry. */
  lemma StatsAfterMint(db: Db, d: Db, c: Credit, txId: Id, t: Transaction)
    requires c.id !in db.credits && c.status == Available && txId !in db.transactions
    requires d.credits == db.credits[c.id := c] && d.transactions == db.transactions[txId := t]
    ensures var before, after := StatsOf(db), StatsOf(d);
      && after.totalTransactions == before.totalTransactions + 1
      && after.availableCredits == before.availableCredits + 1
      && after.totalCreditsIssued == before.totalCreditsIssued + c.amount
  {
    var ids := AvailableIds(db);
    assert AvailableIds(d) == ids + {c.id};
    AmountOverRemove(d.credits, ids + {c.id}, c.id);
    assert ids + {c.id} - {c.id} == ids;
    AmountOverFrame(db.credits, d.credits, ids);
  }

  /** Selling an available credit and adding one ledger entry takes the
      credit's amount off sale and counts the entry. */
  lemma StatsAfterSale(db: Db, d: Db, creditId: Id, buyerId: Id, txId: Id, t: Transaction)
    requires creditId in db.credits && db.credits[creditId].status == Available && txId !in db.transactions
    requires d.credits == db.credits[creditId := db.credits[creditId].(currentOwnerId := buyerId, status := Sold)]
    requires d.transactions == db.transactions[txId := t]
    ensures var before, after := StatsOf(db), StatsOf(d);
      && after.totalTransactions == before.totalTransactions + 1
      && after.availableCredits == before.availableCredits - 1
      && after.totalCreditsIssued == before.totalCreditsIssued - db.credits[creditId].amount
  {
    var ids := AvailableIds(db);
    assert AvailableIds(d) == ids - {creditId};
    AmountOverRemove(db.credits, ids, creditId);
    AmountOverFrame(db.credits, d.credits, ids - {creditId});
  }

  /** A successful verify adds one ledger entry and puts the plantation's
      credit count on sale. */
  lemma VerifyStats(db: Db, id: Id, verifiedBy: Option<Id>, hash: string, creditId: Id, txId: Id)
    requires Consistent(db) && creditId !in db.credits && txId !in db.transactions
    requires id in db.plantations
    requires Storage.VerifierOrNull(verifiedBy).Some? ==> Storage.VerifierOrNull(verifiedBy).value in db.users
    requires !HashTaken(db.transactions, hash)
    ensures var before, after := StatsOf(db), StatsOf(VerifySpec(db, id, verifiedBy, hash, creditId, txId).db);
      && after.totalTransactions == before.totalTransactions + 1
      && after.availableCredits == before.availableCredits + 1
      && after.totalCreditsIssued == before.totalCreditsIssued + db.plantations[id].creditsEarned
  {
    VerifyMints(db, id, verifiedBy, hash, creditId, txId);
    var p := VerifiedRow(db, id, verifiedBy);
    StatsAfterMint(db, VerifySpec(db, id, verifiedBy, hash, creditId, txId).db,
                   MintedCredit(id, p, creditId, db.clock + 1), txId, MintRow(p, creditId, hash, txId, db.clock + 2));
  }

  /** A successful purchase adds one ledger entry and takes the credit's
      amount off sale. */
  lemma PurchaseStats(db: Db, creditId: Id, buyerId: Id, hash: string, txId: Id)
    requires Consistent(db) && txId !in db.transactions
    requires creditId in db.credits && db.credits[creditId].status == Available && buyerId in db.users
    requires !HashTaken(db.transactions, hash)
    ensures var before, after := StatsOf(db), StatsOf(PurchaseSpec(db, creditId, buyerId, hash, txId).db);
      && after.totalTransactions == before.totalTransactions + 1
      && after.availableCredits == before.availableCredits - 1
      && after.totalCreditsIssued == before.totalCreditsIssued - db.credits[creditId].amount
  {
    PurchaseTransfers(db, creditId, buyerId, hash, txId);
    var d := PurchaseSpec(db, creditId, buyerId, hash, txId).db;
    StatsAfterSale(db, d, creditId, buyerId, txId, d.transactions[txId]);
  }

  /** Reject leaves the stats as they were. */
  lemma RejectStats(db: Db, id: Id)
    ensures StatsOf(RejectSpec(db, id).db) == StatsOf(db)
  {
    RejectKeepsCredits(db, id);
  }

  // ---------------------------------------------------------------------
  // Seeded users and hashes

  /** Each login role reaches a seeded user of that very role. */
  lemma SeededLogin(now: nat, role: string)
    requires role == "ngo" || role == "buyer" || role == "admin"
    ensures SeededUserId(role).value in Storage.SampleData(now).users
    ensures Storage.SampleData(now).users[SeededUserId(role).value].role == role
  {
  }

  /** The seeded mint's hash has the shape both generators produce. */
  lemma SampleHashShaped(now: nat)
    ensures Utils.HashShaped(Storage.SampleData(now).transactions["tx-001"].transactionHash)
  {
    var h := Storage.SampleData(now).transactions["tx-001"].transactionHash;
    assert h == "0xA4F2E9...B8C3D1";
  }
}
